=== FILE: README.md ===
# Pirate Islands, modelled in Dafny

This project models the game engine of *Pirate Islands* (`TextBasedGme.py`), a
text adventure in which a pirate sails between seven islands. The pirate
picks up and drops items, and wins by standing on Pirate Cove while carrying
every treasure item.

The model has two layers:

- **The rules on values** (`rules.dfy`). A snapshot `State` holds where the
  player stands, what they carry and what lies on every island. Each command
  handler is a function from one snapshot to the next, together with what the
  game prints, as `Message` values. The game's properties are proved here:
  the player always stands on an island, no item is created or lost, take and
  drop move exactly the first match, victory is announced exactly when
  earned, and on the shipped islands some typed direction names take the
  player from any island to any other.
- **The engine as the program runs it** (`engine.dfy`). The islands (`Island`,
  `world.dfy`) and the player (`Player`, `player.dfy`) are objects updated in
  place, as in the Python. Every handler is a method proved to leave the
  objects in exactly the snapshot the rules give and to print exactly what
  they say. `StartGame` runs the session loop over the typed lines.

Supporting modules:

- `text.dfy`: the Python string built-ins the parser uses — `str.split`,
  `str.strip`, `str.lower`, `" ".join` and substring `in`.
- `search.dfy`: the `[i for i in items if key in i.lower()]` search and
  `list.remove`.
- `commands.dfy`: `parse_direction`, and the verb dispatch as a closed
  `Command` type.

Input is a parameter: `StartGame` receives the lines the player would type,
and the end of that sequence stands for end of input. Output is the list of
`Message` values the game would print, not the text.

## Model

| member | source | states |
|---|---|---|
| Text.LowerChar | TextBasedGme.py:163 | the result is never an upper-case letter; a character changes exactly when it is an upper-case letter; whitespace stays whitespace |
| Text.Lower | TextBasedGme.py:163 | `str.lower` keeps the length and lowers each character independently |
| Text.LowerWord | TextBasedGme.py:255 | lowering a word gives a word: not empty and without whitespace |
| Text.LowerIdempotent | TextBasedGme.py:163 | lowering twice is the same as lowering once |
| Text.IsSpace | TextBasedGme.py:251 | the characters `str.split()` and `str.strip()` treat as whitespace (definition, no contract) |
| Text.TrimStart | TextBasedGme.py:251 | the line with its leading whitespace cut off: a suffix of the line, after whitespace only, not starting with whitespace |
| Text.TrimEnd | TextBasedGme.py:251 | the line with its trailing whitespace cut off: a prefix of the line, followed by whitespace only, not ending with whitespace |
| Text.Strip | TextBasedGme.py:251 | `str.strip` gives the slice of the line between its leading and its trailing whitespace, with no whitespace at either end, and is empty exactly when the line is all whitespace |
| Text.DropEmpty | TextBasedGme.py:251 | the `if t` filter: keeps only non-empty tokens, never more than it was given |
| Text.Split | TextBasedGme.py:251 | `str.split()` yields only non-empty whitespace-free words, and none exactly when the line is all whitespace |
| Text.SplitWord | TextBasedGme.py:251 | a single word splits into itself |
| Text.SplitWordThenSpace | TextBasedGme.py:251 | a word followed by a run of whitespace is the first token, and the rest of the line gives the rest of the tokens; with SplitSkipsLeadingSpace and SplitWord this fixes the tokens of every line as its maximal runs of non-whitespace, in order |
| Text.SplitSkipsLeadingSpace | TextBasedGme.py:251 | leading whitespace does not change the tokens |
| Text.DropEmptyOfWords | TextBasedGme.py:251 | the `if t` filter removes nothing from a list of words |
| Text.JoinSpace | TextBasedGme.py:190 | `" ".join(args)`: the words with one space between each (definition; SplitJoinSpace states its round trip) |
| Text.SplitOfStrip | TextBasedGme.py:251 | splitting the stripped line gives the same words as splitting the line |
| Text.SplitJoinSpace | TextBasedGme.py:190 | `" ".join` of words splits back into the same words, so the joined search key keeps every typed word |
| Text.Contains | TextBasedGme.py:193 | substring `in` (definition; ContainsIff states what it means) |
| Text.ContainsIff | TextBasedGme.py:193 | substring `in` holds exactly when the needle occurs at some position of the haystack |
| Islands.Island.constructor | TextBasedGme.py:43-48 | an island starts with the given name, items and exits |
| Islands.PirateCove | TextBasedGme.py:242 | the home island named in the victory tests (constant) |
| Islands.StartIsland | TextBasedGme.py:111 | START_ISLAND, Pirate Cove (constant) |
| Islands.IslandNames | TextBasedGme.py:51-109 | the seven islands of WORLD in declaration order (constant) |
| Islands.Layout | TextBasedGme.py:51-109 | the exits of every island of WORLD (constant; LayoutEdges states each exit) |
| Islands.InitialItems | TextBasedGme.py:51-109 | the items lying on every island of WORLD when the program starts (constant) |
| Islands.Items | TextBasedGme.py:51-109 | the snapshot of item lists has one entry per island, equal to that island's list |
| Islands.SetItems | TextBasedGme.py:198 | changes one island's item list in place, and no other island's |
| Islands.TotalUpdate | TextBasedGme.py:198-199 | replacing one island's list changes the multiset of all items on islands by exactly what was removed and added |
| Islands.MoveToBag | TextBasedGme.py:198-199 | moving an item from an island to the end of the bag keeps the multiset of all items in the game |
| Islands.MoveToIsland | TextBasedGme.py:216-217 | moving an item from the bag to the end of an island's list keeps the multiset of all items in the game |
| Islands.WellFormed | TextBasedGme.py:43-109 | every island is filed under its own name and every exit leads to an island of the world (definition, no contract) |
| Islands.Walk | TextBasedGme.py:174-178 | where following a list of directions leads, exit by exit as handle_go moves (definition, no contract) |
| Islands.ChartOf | TextBasedGme.py:48 | the exit table of the world: one entry per island, equal to that island's exits |
| Islands.WalkOne | TextBasedGme.py:174-178 | a one-step route follows the exit with that label when the island has one, and fails otherwise |
| Islands.WalkFirst | TextBasedGme.py:174-178 | a route that arrives somewhere starts along an exit of its first island, and the rest of it arrives at the same place |
| Islands.WalkAppend | TextBasedGme.py:51-109 | following two routes one after the other ends where the second route ends |
| Islands.LayoutEdges | TextBasedGme.py:51-109 | following each of the fourteen single exits of the shipped layout leads to the island the program declares |
| Islands.LayoutClosed | TextBasedGme.py:51-109 | every exit of the shipped world leads to an island of the world |
| Islands.HomeReachesAll | TextBasedGme.py:51-111 | every island can be reached from the start island by following exits |
| Islands.AllReachHome | TextBasedGme.py:51-111 | Pirate Cove can be reached from every island by following exits |
| Islands.LayoutStronglyConnected | TextBasedGme.py:51-111 | every island can be reached from every island along exits (GoAnywhere turns such a route into typed go commands) |
| Islands.ShippedWorld | TextBasedGme.py:51-109 | islands carrying the shipped names, exits and items, one for every island of the layout, form a well-formed world with exactly the layout's islands, holding the initial items |
| Islands.NewIsland | TextBasedGme.py:51-109 | builds one shipped island with its name, exits and initial items |
| Islands.AddIsland | TextBasedGme.py:51-109 | adding the shipped island called k adds exactly that name as a new object; every island built so far under another name is the same object and still carries its own name and its shipped exits and items |
| Islands.IslandNamesShipped | TextBasedGme.py:51-109 | the declared islands are exactly the islands of the layout, each with its initial items |
| Islands.LayoutIsland | TextBasedGme.py:51-109 | an island of the layout is one of the seven islands the game declares |
| Islands.AddIslands | TextBasedGme.py:51-109 | building the named shipped islands one after the other files each under its name, as a new object with its shipped exits and items |
| Islands.NewWorld | TextBasedGme.py:51-111 | builds WORLD: the seven islands, each a new object, well formed, with the shipped exits and items, and containing the start island |
| Players.TreasureItems | TextBasedGme.py:39-41 | TREASURE_ITEMS: the six treasure items (constant) |
| Players.Missing | TextBasedGme.py:226 | a name is missing exactly when it is a treasure item not carried |
| Players.CarriesAllTreasure | TextBasedGme.py:122-123 | `TREASURE_ITEMS.issubset(set(inventory))` holds exactly when every treasure item is carried, whatever else is carried and in whatever order; equivalently nothing is missing |
| Players.MissingIgnoresArrangement | TextBasedGme.py:226 | what is missing depends only on which names are carried, not on their order or repetitions |
| Players.MissingAfterPickup | TextBasedGme.py:226 | carrying more shrinks the missing set by exactly the treasure among the new items |
| Players.Player.constructor | TextBasedGme.py:117-120 | a new player stands on START_ISLAND with an empty bag |
| Players.Player.HasAllTreasure | TextBasedGme.py:122-123 | on the player's own bag, true exactly when every treasure item is carried; equivalently nothing is missing |
| ItemSearch.Matches | TextBasedGme.py:193 | `item in i.lower()`, the test take and drop search with (definition; ContainsIff states what `in` means) |
| ItemSearch.MatchesOf | TextBasedGme.py:193 | the matches come from the list, all match, and there are none exactly when no entry contains the key |
| ItemSearch.RemoveFirst | TextBasedGme.py:198 | `list.remove` takes out one occurrence: one entry shorter, and the multiset loses exactly that item |
| ItemSearch.RemoveFirstAt | TextBasedGme.py:198 | removing the first occurrence of the item at position i removes exactly position i |
| ItemSearch.FirstOfMatches | TextBasedGme.py:193-196 | the head of the match list is the entry at the first matching position |
| ItemSearch.TakeOutFirstMatch | TextBasedGme.py:193-198 | removing `matches[0]` takes out exactly the first matching entry and keeps the others in order |
| Commands.DirectionAliases | TextBasedGme.py:157-162 | parse_direction's table: n, s, e, w and the four full names, each to its full name (constant) |
| Commands.ParseDirection | TextBasedGme.py:156-163 | every token maps to a direction or None: n/north, s/south, e/east, w/west in any case map to the full name, and nothing else maps to a direction |
| Commands.Directions | TextBasedGme.py:157-162 | the four full direction names, the values of parse_direction's table (constant) |
| Commands.DirectionIsLowerWord | TextBasedGme.py:157-162 | each full direction name is a single word already in lower case |
| Commands.ParseDirectionLine | TextBasedGme.py:250-263 | a line holding only a full direction name is a go that way |
| Commands.ParseDirectionIgnoresCase | TextBasedGme.py:163 | a token and its lower case parse alike |
| Commands.GoVerbs | TextBasedGme.py:257 | the verbs that go with the words after them: go, move (constant) |
| Commands.DirectionVerbs | TextBasedGme.py:261 | the bare directions: n, s, e, w and the four full names (constant) |
| Commands.LookVerbs | TextBasedGme.py:265 | look, l (constant) |
| Commands.TakeVerbs | TextBasedGme.py:268 | take, get, pick (constant) |
| Commands.DropVerbs | TextBasedGme.py:271 | the one verb drop, which the code tests with `==` (constant) |
| Commands.InventoryVerbs | TextBasedGme.py:274 | inventory, inv, i, bag (constant) |
| Commands.HelpVerbs | TextBasedGme.py:277 | help, h, ? (constant) |
| Commands.QuitVerbs | TextBasedGme.py:280 | quit, exit (constant) |
| Commands.AllVerbs | TextBasedGme.py:257-284 | every verb the tests know; any other verb falls through to "I don't understand that command" (constant) |
| Commands.VerbSetsDisjoint | TextBasedGme.py:257-282 | the eight synonym sets are pairwise disjoint, so the order of the verb tests does not matter |
| Commands.Dispatches | TextBasedGme.py:257-285 | the declarative reading of the verb tests: go/move goes with the words after it, a bare direction goes that way, look, take/get/pick, drop, inventory, help and quit give their commands, and any other verb is not understood (definition, no contract) |
| Commands.DispatchesOne | TextBasedGme.py:257-285 | that reading leaves exactly one command for each verb and its words |
| Commands.Tokens | TextBasedGme.py:251 | `[t for t in command.strip().split() if t]` is exactly the words of the line |
| Commands.VerbCommand | TextBasedGme.py:257-285 | the chain of verb tests gives what Dispatches says for every verb: go/move goes with the words after it, a bare direction goes that way, each other synonym set gives its command, any other verb is not understood; never blank, and quit exactly for quit and exit |
| Commands.DispatchesArgs | TextBasedGme.py:257-272 | the commands that carry words carry the words after the verb, or the bare direction itself |
| Commands.ParseCommand | TextBasedGme.py:250-285 | blank exactly for whitespace-only lines; otherwise the lower-cased first word and the words after it give the command Dispatches says (a bare direction goes that way, take/get/pick takes the words after it, and so on); quit exactly when the first word lowers to quit or exit |
| Commands.ParseCommandArgs | TextBasedGme.py:251-255 | the lower-cased verb and every word after it are words, and so is every argument a go, take or drop command carries |
| Rules.CheckVictoryOnMove | TextBasedGme.py:241-243 | Victory, and nothing else, exactly when the player is on Pirate Cove carrying every treasure item |
| Rules.ShowLocation | TextBasedGme.py:145-153 | show_location: the current island's name, items and exits as one message (definition, no contract) |
| Rules.GoStep | TextBasedGme.py:166-178 | no argument, not a direction, and no exit are the three cases that leave the player in place, each with its own message; otherwise the player moves along the exit and the new island is shown; the player stays on an island and nothing is picked up or dropped |
| Rules.SearchKey | TextBasedGme.py:190 | `" ".join(args).lower()`, the key take and drop search for (definition, no contract) |
| Rules.TakeStep | TextBasedGme.py:186-202 | no argument or no match changes nothing; only the current island's list can change; Victory is printed exactly when a take succeeded and the player is then on Pirate Cove carrying every treasure item (even if the trove was already complete before) |
| Rules.TakeStepFirstMatch | TextBasedGme.py:189-199 | a successful take moves exactly the first matching island item to the end of the bag, leaves the island's other items in order, and reports that item |
| Rules.TakeStepConserves | TextBasedGme.py:198-199 | taking creates and loses no item |
| Rules.DropStep | TextBasedGme.py:205-218 | no argument or no match changes nothing; only the current island's list can change; no Victory |
| Rules.DropStepFirstMatch | TextBasedGme.py:208-217 | a successful drop moves exactly the first matching bag item to the end of the island's list, leaves the bag's other items in order, and reports that item |
| Rules.DropStepConserves | TextBasedGme.py:216-217 | dropping creates and loses no item |
| Rules.HandleInventory | TextBasedGme.py:221-230 | an empty bag is reported as empty; otherwise the bag is listed, followed by the full-trove note exactly when every treasure is carried, and otherwise by TREASURE_ITEMS minus the carried names |
| Rules.Execute | TextBasedGme.py:250-285 | only quit stops the session; only go, take and drop change the game; only the current island's items can change; the player stays on an island |
| Rules.ExecuteConserves | TextBasedGme.py:250-285 | no command creates or loses an item |
| Rules.ExecuteVictory | TextBasedGme.py:257-270 | Victory is printed exactly after a go, or a take that picked something up, that leaves the player on Pirate Cove with every treasure item |
| Rules.Step | TextBasedGme.py:250-285 | a whitespace-only line changes nothing and prints nothing; the session goes on unless the first word is quit or exit in any case; the player stays on an island |
| Rules.ParseAll | TextBasedGme.py:308 | the command each typed line asks for, in order (definition, no contract) |
| Rules.ResumeTwice | TextBasedGme.py:302-309 | proof helper for PlayOn: resuming a session twice is resuming it once after everything said so far (associativity of the output) |
| Rules.PlayFirst | TextBasedGme.py:302-309 | a session is its first command followed, unless that was quit, by the session of the remaining commands |
| Rules.Play | TextBasedGme.py:299-309 | the loop ends on the first quit or at end of input; commands before the last one read are not quit; the player stays on an island |
| Rules.PlayEndsWithFarewell | TextBasedGme.py:282-283 | whatever is typed, the last message of a session is the farewell, said by quit or at end of input |
| Rules.PlayLine | TextBasedGme.py:302-309 | the session from line i on is line i's step followed, unless it was quit, by the session from line i + 1 on |
| Rules.SessionEnd | TextBasedGme.py:303-305 | when the input runs out the session is over, after one more farewell |
| Rules.PlayOn | TextBasedGme.py:302-309 | each pass of the loop adds that line's output to what was said and moves on to that line's snapshot, and the session is over exactly when the line was quit |
| Rules.GoExit | TextBasedGme.py:261-264 | a go along a direction label follows that exit when the island has one and otherwise leaves the game unchanged; the game goes on |
| Rules.WalkOneIsGo | TextBasedGme.py:166-178 | a go command along one label ends exactly where Walk's one step does, or stays put where Walk fails, with bag and islands unchanged |
| Rules.PlayGoLine | TextBasedGme.py:261-264 | a session whose next line names a direction the island has an exit for continues from the island that exit leads to |
| Rules.WalkIsPlayFrom | TextBasedGme.py:299-309 | typing the rest of a route's direction names from line i on ends where the route ends, with bag and islands unchanged |
| Rules.WalkIsPlay | TextBasedGme.py:299-309 | typing a route's direction names, one per line, leaves the player where Walk says the route ends, with bag and islands unchanged |
| Rules.LayoutLabels | TextBasedGme.py:51-109 | every exit of the shipped world is labelled with a full direction name |
| Rules.WalkLabels | TextBasedGme.py:51-109 | on such a chart every route that arrives somewhere is made of full direction names |
| Rules.GoAnywhere | TextBasedGme.py:299-309 | on the shipped world, from any state some typed lines take the player to any chosen island with bag and islands unchanged, so go commands reach every island from every island |
| Rules.PlayConserves | TextBasedGme.py:299-309 | whatever is typed, every item is still on an island or in the bag at the end |
| Engine.ShippedChart | TextBasedGme.py:51-109 | the shipped world's exit table is the declared layout, which is closed |
| Engine.HandleLook | TextBasedGme.py:145-153 | shows the current island's name, items and exits as the rules say |
| Engine.HandleGo | TextBasedGme.py:166-178 | the player object ends where GoStep says, and the method prints what GoStep prints |
| Engine.HandleTake | TextBasedGme.py:186-202 | the in-place updates of the island list and the bag give exactly TakeStep's snapshot and messages |
| Engine.HandleDrop | TextBasedGme.py:205-218 | the in-place updates of the bag and the island list give exactly DropStep's snapshot and messages |
| Engine.HandleCommand | TextBasedGme.py:250-285 | the objects end in Step's snapshot, the method prints Step's messages, and it returns whether the session goes on |
| Engine.Dispatch | TextBasedGme.py:257-285 | the verb tests on the objects do what Execute says |
| Engine.PlayLines | TextBasedGme.py:301-309 | the loop over the typed lines leaves the objects in Play's final snapshot, reads as many lines as Play and prints Play's messages |
| Engine.HandleLine | TextBasedGme.py:302-309 | handling one line on the objects carries the session one line further, as the rules say |
| Engine.ShippedGame | TextBasedGme.py:299-309 | the program as it runs: WORLD is built and start_game changes its islands in place; the session is exactly Play's on the shipped exits, from the start island with the initial items |
| Engine.StartGame | TextBasedGme.py:299-309 | a new player starts on the start island, which is shown; the session then runs exactly as Play says for the typed lines; the player ends on an island and every item is still on an island or in the bag |

## Left out

- Text output: `wrap`, `title`, `show_instructions`, `print_victory` and all message wording. Messages are abstract `Message` values.
- Island descriptions. They are constant text shown by `show_location`.
- `run` and `main_menu`, and the interactive reading in `start_game`. The lines come in as a sequence, and its end stands for EOF; a KeyboardInterrupt ends the session the same way EOF does.
- Text.Lower: only ASCII `A`-`Z` are lowered. Python's `str.lower` also lowers non-ASCII letters. For example the Kelvin sign lowers to `k`, so "PICK" is the verb "pick" in Python but not in the model.
- Rules.HandleInventory: the missing treasure is reported as a set. The source prints it sorted alphabetically.
- Python's dictionary order when exits are listed: a Dafny `map` has no order, so `Location` carries the exit table as a map.

=== FILE: commands.dfy ===
/**
  The command interpreter's parsing half: direction tokens and the verb
  dispatch of handle_command, as a closed set of commands.
*/
module Commands {
  import opened Wrappers
  import opened Text

  /** parse_direction's table: abbreviations and full names, all lower case. */
  const DirectionAliases: map<string, string> := map[
    "n" := "north", "north" := "north",
    "s" := "south", "south" := "south",
    "e" := "east", "east" := "east",
    "w" := "west", "west" := "west"
  ]

  /** The four full direction names: the labels of every exit. */
  const Directions: set<string> := {"north", "south", "east", "west"}

  /**
    parse_direction: n/s/e/w or the full name, in any case, becomes the full
    lower-case name; every other token becomes None.
  */
  function ParseDirection(token: string): (r: Option<string>)
    ensures r == Some("north") <==> Lower(token) == "n" || Lower(token) == "north"
    ensures r == Some("south") <==> Lower(token) == "s" || Lower(token) == "south"
    ensures r == Some("east") <==> Lower(token) == "e" || Lower(token) == "east"
    ensures r == Some("west") <==> Lower(token) == "w" || Lower(token) == "west"
    ensures r.Some? ==> r.value in Directions
  {
    var t := Lower(token);
    if t in DirectionAliases then Some(DirectionAliases[t]) else None
  }

  /** Parsing a token and parsing its lower case agree. */
  lemma ParseDirectionIgnoresCase(token: string)
    ensures ParseDirection(Lower(token)) == ParseDirection(token)
  {
    LowerIdempotent(token);
  }

  /** What one input line asks for, after handle_command's verb dispatch. */
  datatype Command =
    | Blank                       // no tokens: nothing happens
    | Go(args: seq<string>)       // go/move with its arguments, or a bare direction as [verb]
    | Look
    | Take(args: seq<string>)
    | Drop(args: seq<string>)
    | Inventory
    | Help
    | Quit
    | Unknown

  const GoVerbs: set<string> := {"go", "move"}
  const DirectionVerbs: set<string> := {"n", "s", "e", "w", "north", "south", "east", "west"}
  const LookVerbs: set<string> := {"look", "l"}
  const TakeVerbs: set<string> := {"take", "get", "pick"}
  /** handle_command tests `verb == "drop"`: a set of one verb. */
  const DropVerbs: set<string> := {"drop"}
  const InventoryVerbs: set<string> := {"inventory", "inv", "i", "bag"}
  const HelpVerbs: set<string> := {"help", "h", "?"}
  const QuitVerbs: set<string> := {"quit", "exit"}

  /** Every verb handle_command knows. */
  const AllVerbs: set<string> :=
    GoVerbs + DirectionVerbs + LookVerbs + TakeVerbs + DropVerbs + InventoryVerbs + HelpVerbs + QuitVerbs

  /** No verb belongs to two of the synonym sets, so the order of handle_command's tests does not matter. */
  lemma VerbSetsDisjoint()
    ensures GoVerbs !! DirectionVerbs && GoVerbs !! LookVerbs && GoVerbs !! TakeVerbs && GoVerbs !! DropVerbs
    ensures GoVerbs !! InventoryVerbs && GoVerbs !! HelpVerbs && GoVerbs !! QuitVerbs
    ensures DirectionVerbs !! LookVerbs && DirectionVerbs !! TakeVerbs && DirectionVerbs !! DropVerbs
    ensures DirectionVerbs !! InventoryVerbs && DirectionVerbs !! HelpVerbs && DirectionVerbs !! QuitVerbs
    ensures LookVerbs !! TakeVerbs && LookVerbs !! DropVerbs
    ensures LookVerbs !! InventoryVerbs && LookVerbs !! HelpVerbs && LookVerbs !! QuitVerbs
    ensures TakeVerbs !! DropVerbs && TakeVerbs !! InventoryVerbs && TakeVerbs !! HelpVerbs && TakeVerbs !! QuitVerbs
    ensures DropVerbs !! InventoryVerbs && DropVerbs !! HelpVerbs && DropVerbs !! QuitVerbs
    ensures InventoryVerbs !! HelpVerbs && InventoryVerbs !! QuitVerbs && HelpVerbs !! QuitVerbs
  {
    GoVerbsApart();
    DirectionVerbsApart();
    LookVerbsApart();
    LaterVerbsApart();
  }

  lemma GoVerbsApart()
    ensures GoVerbs !! DirectionVerbs && GoVerbs !! LookVerbs && GoVerbs !! TakeVerbs && GoVerbs !! DropVerbs
    ensures GoVerbs !! InventoryVerbs && GoVerbs !! HelpVerbs && GoVerbs !! QuitVerbs
  {
  }

  lemma DirectionVerbsApart()
    ensures DirectionVerbs !! LookVerbs && DirectionVerbs !! TakeVerbs && DirectionVerbs !! DropVerbs
    ensures DirectionVerbs !! InventoryVerbs && DirectionVerbs !! HelpVerbs && DirectionVerbs !! QuitVerbs
  {
  }

  lemma LookVerbsApart()
    ensures LookVerbs !! TakeVerbs && LookVerbs !! DropVerbs
    ensures LookVerbs !! InventoryVerbs && LookVerbs !! HelpVerbs && LookVerbs !! QuitVerbs
  {
  }

  lemma LaterVerbsApart()
    ensures TakeVerbs !! DropVerbs && TakeVerbs !! InventoryVerbs && TakeVerbs !! HelpVerbs && TakeVerbs !! QuitVerbs
    ensures DropVerbs !! InventoryVerbs && DropVerbs !! HelpVerbs && DropVerbs !! QuitVerbs
    ensures InventoryVerbs !! HelpVerbs && InventoryVerbs !! QuitVerbs && HelpVerbs !! QuitVerbs
  {
  }

  /**
    What handle_command does with a lower-cased verb and the words after it:
    go/move goes with those words, a bare direction goes that way, each other
    synonym set gives its command, and a verb in none of them is not understood.
  */
  predicate Dispatches(verb: string, args: seq<string>, c: Command)
  {
    && (verb in GoVerbs ==> c == Go(args))
    && (verb in DirectionVerbs ==> c == Go([verb]))
    && (verb in LookVerbs ==> c == Look)
    && (verb in TakeVerbs ==> c == Take(args))
    && (verb in DropVerbs ==> c == Drop(args))
    && (verb in InventoryVerbs ==> c == Inventory)
    && (verb in HelpVerbs ==> c == Help)
    && (verb in QuitVerbs ==> c == Quit)
    && (verb !in AllVerbs ==> c == Unknown)
  }

  /** Dispatches leaves one command for each verb and its words. */
  lemma DispatchesOne(verb: string, args: seq<string>, c: Command, d: Command)
    requires Dispatches(verb, args, c) && Dispatches(verb, args, d)
    ensures c == d
  {
    if verb !in AllVerbs {
      assert c == Unknown == d;
    }
  }

  /**
    `[t for t in command.strip().split() if t]`: the same tokens as a plain
    split, since stripping and dropping empty tokens change nothing.
  */
  function Tokens(line: string): (tokens: seq<string>)
    ensures tokens == Split(line)
  {
    SplitOfStrip(line);
    DropEmptyOfWords(Split(line));
    DropEmpty(Split(Strip(line)))
  }

  /** The commands that carry words carry the words after the verb, or the verb itself. */
  lemma DispatchesArgs(verb: string, args: seq<string>, c: Command)
    requires Dispatches(verb, args, c)
    ensures (c.Take? || c.Drop? || c.Go?) ==> c.args == args || c.args == [verb]
  {
    if verb in GoVerbs || verb in DirectionVerbs || verb in TakeVerbs || verb in DropVerbs {
    } else if verb in AllVerbs {
      assert verb in LookVerbs || verb in InventoryVerbs || verb in HelpVerbs || verb in QuitVerbs;
    }
  }

  /** handle_command's chain of verb tests, for the lower-cased verb and the words after it. */
  function VerbCommand(verb: string, args: seq<string>): (c: Command)
    ensures c != Blank
    ensures Dispatches(verb, args, c)
    ensures c == Quit <==> verb in QuitVerbs
  {
    VerbSetsDisjoint();
    if verb in GoVerbs then Go(args)
    else if verb in DirectionVerbs then Go([verb])
    else if verb in LookVerbs then Look
    else if verb in TakeVerbs then Take(args)
    else if verb in DropVerbs then Drop(args)
    else if verb in InventoryVerbs then Inventory
    else if verb in HelpVerbs then Help
    else if verb in QuitVerbs then Quit
    else Unknown
  }

  /**
    handle_command's dispatch: the verb is the lower-cased first token, the
    rest are its arguments; a line without tokens does nothing.
  */
  function ParseCommand(line: string): (c: Command)
    ensures c == Blank <==> AllSpace(line)
    ensures Split(line) != [] ==> Dispatches(Lower(Split(line)[0]), Split(line)[1..], c)
    ensures c == Quit <==> Split(line) != [] && Lower(Split(line)[0]) in QuitVerbs
  {
    var tokens := Tokens(line);
    if tokens == [] then Blank
    else VerbCommand(Lower(tokens[0]), tokens[1..])
  }

  /** A line holding just a full direction name is a go that way. */
  lemma ParseDirectionLine(d: string)
    requires d in Directions
    ensures ParseCommand(d) == Go([d])
  {
    DirectionIsLowerWord(d);
    SplitWord(d);
    assert d in DirectionVerbs;
  }

  /** Each full direction name is a word already in lower case. */
  lemma DirectionIsLowerWord(d: string)
    requires d in Directions
    ensures IsWord(d) && Lower(d) == d
  {
  }

  /**
    The verb and the arguments handle_command passes on are words: the words
    after the verb, or for a bare direction the lower-cased direction itself.
  */
  lemma ParseCommandArgs(line: string)
    ensures Split(line) != [] ==> IsWord(Lower(Split(line)[0]))
    ensures forall k :: 1 <= k < |Split(line)| ==> IsWord(Split(line)[k])
    ensures var c := ParseCommand(line);
            (c.Take? || c.Drop? || c.Go?) ==> forall k :: 0 <= k < |c.args| ==> IsWord(c.args[k])
  {
    var tokens := Split(line);
    if tokens != [] {
      LowerWord(tokens[0]);
      DispatchedWords(tokens, ParseCommand(line));
    }
  }

  /** Dispatching a line of words passes on only words. */
  lemma DispatchedWords(tokens: seq<string>, c: Command)
    requires tokens != [] && forall k :: 0 <= k < |tokens| ==> IsWord(tokens[k])
    requires IsWord(Lower(tokens[0])) && Dispatches(Lower(tokens[0]), tokens[1..], c)
    ensures (c.Take? || c.Drop? || c.Go?) ==> forall k :: 0 <= k < |c.args| ==> IsWord(c.args[k])
  {
    var verb, args := Lower(tokens[0]), tokens[1..];
    DispatchesArgs(verb, args, c);
    if (c.Take? || c.Drop? || c.Go?) && c.args != [verb] {
      forall k | 0 <= k < |args|
        ensures IsWord(args[k])
      {
        assert args[k] == tokens[k + 1];
      }
    }
  }
}

=== FILE: engine.dfy ===
/**
  The game engine as the program runs it: the player and the islands are
  objects updated in place. Every handler is proved to do exactly what the
  value-level rules (module Rules) say, on the snapshot of the game it
  starts from.
*/
module Engine {
  import opened Text
  import opened Islands
  import opened Players
  import opened ItemSearch
  import opened Commands
  import opened Rules

  /** The current game, as a value. */
  function StateOf(player: Player, w: World): State
    reads player, w.Values
  {
    State(player.location, player.inventory, Items(w))
  }

  /** The shipped world's exits are the layout the program declares. */
  lemma ShippedChart(w: World)
    requires w.Keys == Layout.Keys
    requires forall k :: k in w ==> w[k].exits == Layout[k]
    ensures ChartOf(w) == Layout && Closed(ChartOf(w))
  {
    LayoutClosed();
  }

  /** show_location (and handle_look): the island the player stands on, with its items and exits. */
  method HandleLook(player: Player, w: World) returns (out: seq<Message>)
    requires WellFormed(w) && player.location in w
    ensures out == ShowLocation(ChartOf(w), StateOf(player, w))
  {
    var island := w[player.location];
    out := [Location(island.name, island.items, island.exits)];
  }

  /** handle_go, moving the player object. */
  method HandleGo(player: Player, w: World, args: seq<string>) returns (out: seq<Message>)
    requires WellFormed(w) && player.location in w
    modifies player
    ensures var r := GoStep(ChartOf(w), old(StateOf(player, w)), args);
            StateOf(player, w) == r.state && out == r.out
  {
    if args == [] {
      return [GoWhere];
    }
    var direction := ParseDirection(args[0]);
    if direction.None? {
      return [NotADirection];
    }
    var island := w[player.location];
    if direction.value !in island.exits {
      return [NoPassage];
    }
    player.location := island.exits[direction.value];
    out := HandleLook(player, w);
  }

  /** handle_take, changing the island's item list and the bag in place. */
  method HandleTake(player: Player, w: World, args: seq<string>) returns (out: seq<Message>)
    requires WellFormed(w) && player.location in w
    modifies player, w[player.location]
    ensures var r := TakeStep(old(StateOf(player, w)), args);
            StateOf(player, w) == r.state && out == r.out
  {
    if args == [] {
      return [TakeWhat];
    }
    var item := SearchKey(args);
    var island := w[player.location];
    var matches := MatchesOf(island.items, item);
    if matches == [] {
      return [NotHere];
    }
    var found := matches[0];
    SetItems(w, player.location, RemoveFirst(island.items, found));
    player.inventory := player.inventory + [found];
    out := [Took(found)];
    if player.HasAllTreasure() && player.location == PirateCove {
      out := out + [Victory];
    }
  }

  /** handle_drop, changing the bag and the island's item list in place. */
  method HandleDrop(player: Player, w: World, args: seq<string>) returns (out: seq<Message>)
    requires WellFormed(w) && player.location in w
    modifies player, w[player.location]
    ensures var r := DropStep(old(StateOf(player, w)), args);
            StateOf(player, w) == r.state && out == r.out
  {
    if args == [] {
      return [DropWhat];
    }
    var item := SearchKey(args);
    var matches := MatchesOf(player.inventory, item);
    if matches == [] {
      return [NotCarrying];
    }
    var found := matches[0];
    player.inventory := RemoveFirst(player.inventory, found);
    SetItems(w, player.location, w[player.location].items + [found]);
    out := [Dropped(found)];
  }

  /** handle_command on the objects: only the player and the island they stand on can change. */
  method HandleCommand(player: Player, w: World, line: string) returns (keepGoing: bool, out: seq<Message>)
    requires WellFormed(w) && player.location in w
    modifies player, w[player.location]
    ensures var r := Step(ChartOf(w), old(StateOf(player, w)), line);
            keepGoing == r.keepGoing && StateOf(player, w) == r.state && out == r.out
  {
    keepGoing, out := Dispatch(player, w, ParseCommand(line));
  }

  /** handle_command's chain of verb tests, once the line is parsed. */
  method Dispatch(player: Player, w: World, command: Command) returns (keepGoing: bool, out: seq<Message>)
    requires WellFormed(w) && player.location in w
    modifies player, w[player.location]
    ensures var r := Execute(ChartOf(w), old(StateOf(player, w)), command);
            keepGoing == r.keepGoing && StateOf(player, w) == r.state && out == r.out
  {
    keepGoing := true;
    match command
    case Blank =>
      out := [];
    case Go(args) =>
      out := HandleGo(player, w, args);
      if player.location == PirateCove && player.HasAllTreasure() {
        out := out + [Victory];
      }
    case Look =>
      out := HandleLook(player, w);
    case Take(args) =>
      out := HandleTake(player, w, args);
    case Drop(args) =>
      out := HandleDrop(player, w, args);
    case Inventory =>
      out := HandleInventory(player.inventory);
    case Help =>
      out := [Instructions];
    case Quit =>
      keepGoing := false;
      out := [Farewell];
    case Unknown =>
      out := [Unrecognized];
  }

  /**
    start_game, with the lines typed given up front: a new player starts on
    the start island, which is shown; then the typed lines are played out.
    The session is exactly the one the rules describe for the commands typed.
  */
  method StartGame(w: World, lines: seq<string>) returns (player: Player, out: seq<Message>, consumed: nat)
    requires WellFormed(w) && StartIsland in w
    modifies w.Values
    ensures fresh(player)
    ensures player.location in w
    ensures Total(Items(w)) + multiset(player.inventory) == old(Total(Items(w)))
    ensures var s0 := State(StartIsland, [], old(Items(w)));
            var r := Play(ChartOf(w), s0, ParseAll(lines));
            StateOf(player, w) == r.state && consumed == r.consumed
            && out == ShowLocation(ChartOf(w), s0) + r.out
  {
    player := new Player();
    ghost var s0 := StateOf(player, w);
    var first := HandleLook(player, w);
    var said;
    said, consumed := PlayLines(player, w, lines);
    out := first + said;
    PlayConserves(ChartOf(w), s0, ParseAll(lines));
  }

  /**
    The program as it runs: WORLD is built, then start_game plays the typed
    lines on it, changing its islands in place. The session is the one the
    rules describe on the shipped layout, from the start island with the
    initial items.
  */
  method ShippedGame(lines: seq<string>) returns (w: World, player: Player, out: seq<Message>, consumed: nat)
    ensures WellFormed(w) && w.Keys == Layout.Keys && StartIsland in w
    ensures forall k :: k in w ==> w[k].exits == Layout[k]
    ensures InitialItems.Keys == w.Keys
    ensures var s0 := State(StartIsland, [], InitialItems);
            var r := Play(ChartOf(w), s0, ParseAll(lines));
            StateOf(player, w) == r.state && consumed == r.consumed
            && out == ShowLocation(ChartOf(w), s0) + r.out
  {
    w := NewWorld();
    player, out, consumed := StartGame(w, lines);
  }

  /**
    start_game's loop: lines are handled one by one until one is quit/exit
    or the input runs out, which says farewell as well.
  */
  method PlayLines(player: Player, w: World, lines: seq<string>) returns (said: seq<Message>, consumed: nat)
    requires WellFormed(w) && player.location in w
    modifies player, w.Values
    ensures var r := Play(ChartOf(w), old(StateOf(player, w)), ParseAll(lines));
            StateOf(player, w) == r.state && consumed == r.consumed && said == r.out
  {
    ghost var chart, s0, commands := ChartOf(w), StateOf(player, w), ParseAll(lines);
    ghost var now := s0;
    SessionStart(chart, s0, commands);
    said := [];
    consumed := 0;
    var keepGoing := true;
    while keepGoing && consumed < |lines|
      invariant consumed <= |lines| && now == StateOf(player, w) && Valid(chart, now)
      invariant SessionSoFar(chart, s0, commands, said, consumed, now, keepGoing)
      decreases |lines| - consumed, keepGoing
    {
      var heard;
      keepGoing, heard := HandleLine(player, w, lines, consumed, s0, said);
      now := StateOf(player, w);
      said := said + heard;
      consumed := consumed + 1;
    }
    if keepGoing {
      SessionEnd(chart, s0, commands, said, now);
      said := said + [Farewell];
    }
  }

  /**
    One pass of start_game's loop: handling line n carries the session the
    rules describe one line further.
  */
  method HandleLine(player: Player, w: World, lines: seq<string>, n: nat, ghost s0: State, ghost said: seq<Message>)
    returns (keepGoing: bool, heard: seq<Message>)
    requires WellFormed(w) && player.location in w && n < |lines| && Valid(ChartOf(w), s0)
    requires SessionSoFar(ChartOf(w), s0, ParseAll(lines), said, n, StateOf(player, w), true)
    modifies player, w[player.location]
    ensures Valid(ChartOf(w), StateOf(player, w))
    ensures SessionSoFar(ChartOf(w), s0, ParseAll(lines), said + heard, n + 1, StateOf(player, w), keepGoing)
  {
    PlayOn(ChartOf(w), s0, lines, said, n, StateOf(player, w));
    keepGoing, heard := HandleCommand(player, w, lines[n]);
  }
}

=== FILE: player.dfy ===
/**
  The player: where they stand and what they carry, and the treasure they must
  bring home.
*/
module Players {
  import opened Islands

  /** TREASURE_ITEMS: what must be carried back to Pirate Cove. */
  const TreasureItems: set<string> := {"cutlass", "compass", "doubloon", "rum", "spyglass", "map piece"}

  /** `TREASURE_ITEMS - set(inventory)`: the treasure not yet carried. */
  function Missing(inventory: seq<string>): (m: set<string>)
    ensures forall t :: t in m <==> t in TreasureItems && t !in inventory
  {
    TreasureItems - set x | x in inventory
  }

  /**
    `TREASURE_ITEMS.issubset(set(inventory))`: every treasure item is carried,
    whatever the order, repetitions or extra items; equivalently nothing is missing.
  */
  function CarriesAllTreasure(inventory: seq<string>): (r: bool)
    ensures r <==> forall t :: t in TreasureItems ==> t in inventory
    ensures r <==> Missing(inventory) == {}
  {
    TreasureItems <= set x | x in inventory
  }

  /** What is missing depends only on which items are carried: not on order, repetitions or extras. */
  lemma MissingIgnoresArrangement(a: seq<string>, b: seq<string>)
    requires forall x :: x in a <==> x in b
    ensures Missing(a) == Missing(b)
  {
  }

  /** Picking more items up can only shrink what is missing, by exactly the treasure among them. */
  lemma MissingAfterPickup(inventory: seq<string>, extra: seq<string>)
    ensures Missing(inventory + extra) == Missing(inventory) - set x | x in extra
  {
  }

  class Player {
    var location: string
    var inventory: seq<string>

    /** A new player stands on the start island with an empty bag. */
    constructor ()
      ensures location == StartIsland && inventory == []
    {
      location := StartIsland;
      inventory := [];
    }

    /** has_all_treasure, on the player's own bag: every treasure item is carried, so nothing is missing. */
    function HasAllTreasure(): (r: bool)
      reads this
      ensures r <==> forall t :: t in TreasureItems ==> t in inventory
      ensures r <==> Missing(inventory) == {}
    {
      CarriesAllTreasure(inventory)
    }
  }
}

=== FILE: rules.dfy ===
/**
  The rules of the game on values: what each command does to a snapshot of
  the game (where the player stands, what they carry, what lies on every
  island) and what it makes the game say. The imperative engine is proved to
  follow these rules; the properties of the game are proved here.
*/
module Rules {
  import opened Wrappers
  import opened Text
  import opened Islands
  import opened Players
  import opened ItemSearch
  import opened Commands

  /** What one command makes the game print, as values. */
  datatype Message =
    | Location(name: string, items: seq<string>, exits: map<string, string>)  // show_location
    | GoWhere            // "Go where?"
    | NotADirection      // "That's not a direction."
    | NoPassage          // "No passage that way."
    | TakeWhat           // "Take what?"
    | NotHere            // "You don't see that here."
    | Took(item: string)
    | DropWhat           // "Drop what?"
    | NotCarrying        // "You aren't carrying that."
    | Dropped(item: string)
    | BagEmpty           // "Your bag is empty."
    | Carrying(items: seq<string>)
    | StillMissing(missing: set<string>)
    | FullTrove          // "You've collected the full trove!"
    | Instructions       // show_instructions
    | Victory            // print_victory
    | Farewell           // "Fair winds, captain."
    | Unrecognized       // "I don't understand that command."

  /** A snapshot of the game: the player's location and bag, and every island's items. */
  datatype State = State(location: string, inventory: seq<string>, items: map<string, seq<string>>)

  /** The player stands on an island of the chart, and every island has an item list. */
  predicate Valid(chart: Chart, s: State)
  {
    s.location in chart && s.items.Keys == chart.Keys
  }

  /** Every item of the game, counted with multiplicity: on the islands and in the bag. */
  ghost function AllItems(s: State): multiset<string>
  {
    Total(s.items) + multiset(s.inventory)
  }

  /** The new snapshot after one action, and what the action printed. */
  datatype Outcome = Outcome(state: State, out: seq<Message>)

  /** show_location */
  function ShowLocation(chart: Chart, s: State): seq<Message>
    requires Valid(chart, s)
  {
    [Location(s.location, s.items[s.location], chart[s.location])]
  }

  /** check_victory_on_move: Victory exactly when the player is home with every treasure. */
  function CheckVictoryOnMove(s: State): (out: seq<Message>)
    ensures out == [] || out == [Victory]
    ensures out == [Victory] <==> s.location == PirateCove && forall t :: t in TreasureItems ==> t in s.inventory
  {
    if s.location == PirateCove && CarriesAllTreasure(s.inventory) then [Victory] else []
  }

  /**
    handle_go: with no argument, a token that is not a direction, or no exit
    that way, the player stays put; otherwise they move along the exit, which
    leads to an island of the chart. Nothing is picked up or dropped.
  */
  function GoStep(chart: Chart, s: State, args: seq<string>): (r: Outcome)
    requires Closed(chart) && Valid(chart, s)
    ensures Valid(chart, r.state)
    ensures r.state.inventory == s.inventory && r.state.items == s.items
    ensures Victory !in r.out
    ensures args == [] ==> r == Outcome(s, [GoWhere])
    ensures args != [] && ParseDirection(args[0]).None? ==> r == Outcome(s, [NotADirection])
    ensures args != [] && ParseDirection(args[0]).Some? ==>
              var d := ParseDirection(args[0]).value;
              if d in chart[s.location] then
                r.state.location == chart[s.location][d] && r.out == ShowLocation(chart, r.state)
              else r == Outcome(s, [NoPassage])
  {
    if args == [] then Outcome(s, [GoWhere])
    else
      var direction := ParseDirection(args[0]);
      if direction.None? then Outcome(s, [NotADirection])
      else if direction.value !in chart[s.location] then Outcome(s, [NoPassage])
      else
        var t := s.(location := chart[s.location][direction.value]);
        Outcome(t, ShowLocation(chart, t))
  }

  /** `" ".join(args).lower()`: what take and drop look for. */
  function SearchKey(args: seq<string>): string
  {
    Lower(JoinSpace(args))
  }

  /**
    handle_take. With no argument, or when no item here contains the typed
    words (ignoring case), nothing changes; otherwise an item moves from this
    island to the bag (which one: TakeStepFirstMatch). No other island
    changes, and Victory follows exactly when a take succeeded and the player,
    on Pirate Cove, then carries every treasure item (whether or not this take
    was the one that completed the trove).
  */
  function TakeStep(s: State, args: seq<string>): (r: Outcome)
    requires s.location in s.items
    ensures r.state.location == s.location && r.state.items.Keys == s.items.Keys
    ensures r.state.items == s.items[s.location := r.state.items[s.location]]
    ensures args == [] ==> r == Outcome(s, [TakeWhat])
    ensures args != [] && NoneMatch(s.items[s.location], SearchKey(args)) ==> r == Outcome(s, [NotHere])
    ensures Victory in r.out <==> |r.state.inventory| == |s.inventory| + 1 && CheckVictoryOnMove(r.state) == [Victory]
  {
    if args == [] then Outcome(s, [TakeWhat])
    else
      var here := s.items[s.location];
      var matches := MatchesOf(here, SearchKey(args));
      if matches == [] then Outcome(s, [NotHere])
      else
        var found := matches[0];
        var t := State(s.location, s.inventory + [found], s.items[s.location := RemoveFirst(here, found)]);
        Outcome(t, [Took(found)] + CheckVictoryOnMove(t))
  }

  /**
    A take that finds something moves exactly the first matching item, in
    island order, to the end of the bag; the island keeps its other items in
    order.
  */
  lemma TakeStepFirstMatch(s: State, args: seq<string>)
    requires s.location in s.items
    requires args != [] && !NoneMatch(s.items[s.location], SearchKey(args))
    ensures var r, here := TakeStep(s, args), s.items[s.location];
            exists i :: IsFirstMatch(here, SearchKey(args), i)
              && r.state.items[s.location] == here[..i] + here[i + 1..]
              && r.state.inventory == s.inventory + [here[i]]
              && r.out == [Took(here[i])] + CheckVictoryOnMove(r.state)
  {
    TakeOutFirstMatch(s.items[s.location], SearchKey(args));
  }

  /** Taking creates and loses nothing: every item is still on an island or in the bag. */
  lemma TakeStepConserves(s: State, args: seq<string>)
    requires s.location in s.items
    ensures AllItems(TakeStep(s, args).state) == AllItems(s)
  {
    var here := s.items[s.location];
    if args != [] && MatchesOf(here, SearchKey(args)) != [] {
      var found := MatchesOf(here, SearchKey(args))[0];
      MoveToBag(s.items, s.location, RemoveFirst(here, found), s.inventory, found);
    }
  }

  /**
    handle_drop, the mirror of take: with no argument or no carried item
    matching, nothing changes; otherwise an item moves from the bag to the end
    of this island's items (which one: DropStepFirstMatch).
  */
  function DropStep(s: State, args: seq<string>): (r: Outcome)
    requires s.location in s.items
    ensures r.state.location == s.location && r.state.items.Keys == s.items.Keys
    ensures r.state.items == s.items[s.location := r.state.items[s.location]]
    ensures Victory !in r.out
    ensures args == [] ==> r == Outcome(s, [DropWhat])
    ensures args != [] && NoneMatch(s.inventory, SearchKey(args)) ==> r == Outcome(s, [NotCarrying])
  {
    if args == [] then Outcome(s, [DropWhat])
    else
      var matches := MatchesOf(s.inventory, SearchKey(args));
      if matches == [] then Outcome(s, [NotCarrying])
      else
        var found := matches[0];
        var here := s.items[s.location];
        Outcome(State(s.location, RemoveFirst(s.inventory, found), s.items[s.location := here + [found]]),
                [Dropped(found)])
  }

  /**
    A drop that finds something moves exactly the first matching item, in
    bag order, to the end of this island's items; the bag keeps its other
    items in order.
  */
  lemma DropStepFirstMatch(s: State, args: seq<string>)
    requires s.location in s.items
    requires args != [] && !NoneMatch(s.inventory, SearchKey(args))
    ensures var r, bag := DropStep(s, args), s.inventory;
            exists i :: IsFirstMatch(bag, SearchKey(args), i)
              && r.state.inventory == bag[..i] + bag[i + 1..]
              && r.state.items[s.location] == s.items[s.location] + [bag[i]]
              && r.out == [Dropped(bag[i])]
  {
    TakeOutFirstMatch(s.inventory, SearchKey(args));
  }

  /** Dropping creates and loses nothing. */
  lemma DropStepConserves(s: State, args: seq<string>)
    requires s.location in s.items
    ensures AllItems(DropStep(s, args).state) == AllItems(s)
  {
    if args != [] && MatchesOf(s.inventory, SearchKey(args)) != [] {
      var found := MatchesOf(s.inventory, SearchKey(args))[0];
      MoveToIsland(s.items, s.location, s.inventory, RemoveFirst(s.inventory, found), found);
    }
  }

  /**
    handle_inventory: an empty bag is reported as such; otherwise the bag is
    listed, followed by the treasure still missing or by the full-trove note.
  */
  function HandleInventory(inventory: seq<string>): (out: seq<Message>)
    ensures Victory !in out
    ensures inventory == [] <==> out == [BagEmpty]
    ensures inventory != [] ==>
              && |out| == 2
              && out[0] == Carrying(inventory)
              && (out[1] == FullTrove <==> forall t :: t in TreasureItems ==> t in inventory)
              && (out[1] != FullTrove ==> out[1] == StillMissing(Missing(inventory)))
  {
    if inventory == [] then [BagEmpty]
    else
      var missing := Missing(inventory);
      [Carrying(inventory)] + (if missing != {} then [StillMissing(missing)] else [FullTrove])
  }

  /** One command carried out: whether the session goes on, the new snapshot and what was printed. */
  datatype Turn = Turn(keepGoing: bool, state: State, out: seq<Message>)

  /**
    handle_command's dispatch, once the verb is known: quit ends the session
    and is the only command that does; only go, take and drop change the
    snapshot, only the current island's items can change, and the player
    stays on an island of the chart.
  */
  function Execute(chart: Chart, s: State, c: Command): (r: Turn)
    requires Closed(chart) && Valid(chart, s)
    ensures Valid(chart, r.state)
    ensures r.keepGoing <==> c != Quit
    ensures r.state.items == s.items[s.location := r.state.items[s.location]]
    ensures c == Blank ==> r == Turn(true, s, [])
    ensures c == Quit ==> r == Turn(false, s, [Farewell])
    ensures !(c.Go? || c.Take? || c.Drop?) ==> r.state == s
    ensures c.Go? ==> r.state.inventory == s.inventory && r.state.items == s.items
    ensures c.Take? || c.Drop? ==> r.state.location == s.location
  {
    match c
    case Blank => Turn(true, s, [])
    case Go(args) =>
      var o := GoStep(chart, s, args);
      Turn(true, o.state, o.out + CheckVictoryOnMove(o.state))
    case Look => Turn(true, s, ShowLocation(chart, s))
    case Take(args) =>
      var o := TakeStep(s, args);
      Turn(true, o.state, o.out)
    case Drop(args) =>
      var o := DropStep(s, args);
      Turn(true, o.state, o.out)
    case Inventory => Turn(true, s, HandleInventory(s.inventory))
    case Help => Turn(true, s, [Instructions])
    case Quit => Turn(false, s, [Farewell])
    case Unknown => Turn(true, s, [Unrecognized])
  }

  /** No command creates or loses an item. */
  lemma ExecuteConserves(chart: Chart, s: State, c: Command)
    requires Closed(chart) && Valid(chart, s)
    ensures AllItems(Execute(chart, s, c).state) == AllItems(s)
  {
    match c
    case Take(args) => TakeStepConserves(s, args);
    case Drop(args) => DropStepConserves(s, args);
    case _ =>
  }

  /**
    Victory is announced after any go and after a take that succeeded,
    exactly when the player is then home with all the treasure; never after
    anything else.
  */
  lemma ExecuteVictory(chart: Chart, s: State, c: Command)
    requires Closed(chart) && Valid(chart, s)
    ensures var r := Execute(chart, s, c);
            Victory in r.out <==>
              && (c.Go? || (c.Take? && |r.state.inventory| > |s.inventory|))
              && r.state.location == PirateCove
              && forall t :: t in TreasureItems ==> t in r.state.inventory
  {
    match c
    case Go(args) =>
      var o := GoStep(chart, s, args);
      assert Execute(chart, s, c).out == o.out + CheckVictoryOnMove(o.state);
    case Take(args) =>
    case Drop(args) =>
    case Look =>
    case Inventory =>
    case _ =>
  }

  /**
    handle_command: one line typed. Whitespace-only input does nothing, and
    the session goes on unless the first word is quit or exit in any case.
  */
  function Step(chart: Chart, s: State, line: string): (r: Turn)
    requires Closed(chart) && Valid(chart, s)
    ensures Valid(chart, r.state)
    ensures r.keepGoing <==> ParseCommand(line) != Quit
    ensures r.keepGoing <==> !(Split(line) != [] && Lower(Split(line)[0]) in QuitVerbs)
    ensures AllSpace(line) ==> r == Turn(true, s, [])
  {
    Execute(chart, s, ParseCommand(line))
  }

  /** A whole session: the final snapshot, everything printed, and how many commands were read. */
  datatype Session = Session(state: State, out: seq<Message>, consumed: nat)

  /** The command each typed line asks for. */
  function ParseAll(lines: seq<string>): (commands: seq<Command>)
  {
    seq(|lines|, i requires 0 <= i < |lines| => ParseCommand(lines[i]))
  }

  /**
    start_game's loop over the commands typed: each is carried out in turn
    until one is quit (which is still carried out) or the input runs out
    (which prints the same farewell). The player ends on an island.
  */
  function Play(chart: Chart, s: State, commands: seq<Command>): (r: Session)
    requires Closed(chart) && Valid(chart, s)
    ensures Valid(chart, r.state)
    ensures r.consumed <= |commands| && (commands != [] ==> 0 < r.consumed)
    ensures forall j :: 0 <= j < r.consumed - 1 ==> commands[j] != Quit
    ensures r.consumed < |commands| ==> commands[r.consumed - 1] == Quit
    decreases |commands|
  {
    if commands == [] then Session(s, [Farewell], 0)
    else
      var t := Execute(chart, s, commands[0]);
      if !t.keepGoing then Session(t.state, t.out, 1)
      else
        var rest := Play(chart, t.state, commands[1..]);
        assert forall j :: 1 <= j < |commands| ==> commands[j] == commands[1..][j - 1];
        Session(rest.state, t.out + rest.out, rest.consumed + 1)
  }

  /** The rest of a session, after `said` has been printed for the first `n` commands. */
  function Resume(said: seq<Message>, n: nat, r: Session): Session
  {
    Session(r.state, said + r.out, r.consumed + n)
  }

  /** Resuming twice is resuming once after everything said so far. */
  lemma ResumeTwice(a: seq<Message>, n: nat, b: seq<Message>, m: nat, r: Session)
    ensures Resume(a, n, Resume(b, m, r)) == Resume(a + b, n + m, r)
  {
    assert a + (b + r.out) == (a + b) + r.out;
  }

  /** A session is its first command followed, unless that was quit, by the session of the rest. */
  lemma PlayFirst(chart: Chart, s: State, commands: seq<Command>)
    requires Closed(chart) && Valid(chart, s) && commands != []
    ensures var t := Execute(chart, s, commands[0]);
            && (t.keepGoing ==> Play(chart, s, commands) == Resume(t.out, 1, Play(chart, t.state, commands[1..])))
            && (!t.keepGoing ==> Play(chart, s, commands) == Session(t.state, t.out, 1))
  {
  }

  /** The session from line i on is line i's step followed, unless it was quit, by the session from line i + 1 on. */
  lemma PlayLine(chart: Chart, s: State, lines: seq<string>, i: nat)
    requires Closed(chart) && Valid(chart, s) && i < |lines|
    ensures var t := Step(chart, s, lines[i]);
            && (t.keepGoing ==> Play(chart, s, ParseAll(lines)[i..]) == Resume(t.out, 1, Play(chart, t.state, ParseAll(lines)[i + 1..])))
            && (!t.keepGoing ==> Play(chart, s, ParseAll(lines)[i..]) == Session(t.state, t.out, 1))
  {
    var rest := ParseAll(lines)[i..];
    assert rest[0] == ParseCommand(lines[i]) && rest[1..] == ParseAll(lines)[i + 1..];
    PlayFirst(chart, s, rest);
  }

  /**
    Where a session over `commands` from s0 stands after reading n of them:
    `said` has been printed and the game is in `now`; if it goes on, the rest
    is the session of the remaining commands from `now`, otherwise it is over.
  */
  ghost predicate SessionSoFar(chart: Chart, s0: State, commands: seq<Command>, said: seq<Message>, n: nat, now: State, going: bool)
    requires Closed(chart) && Valid(chart, s0) && Valid(chart, now) && n <= |commands|
  {
    if going then Play(chart, s0, commands) == Resume(said, n, Play(chart, now, commands[n..]))
    else Play(chart, s0, commands) == Session(now, said, n)
  }

  /** Before anything is read, the session is all still to come. */
  lemma SessionStart(chart: Chart, s0: State, commands: seq<Command>)
    requires Closed(chart) && Valid(chart, s0)
    ensures SessionSoFar(chart, s0, commands, [], 0, s0, true)
  {
    assert commands[0..] == commands;
    assert [] + Play(chart, s0, commands).out == Play(chart, s0, commands).out;
  }

  /** Once the input has run out, the session is over after a farewell. */
  lemma SessionEnd(chart: Chart, s0: State, commands: seq<Command>, said: seq<Message>, now: State)
    requires Closed(chart) && Valid(chart, s0) && Valid(chart, now)
    requires SessionSoFar(chart, s0, commands, said, |commands|, now, true)
    ensures SessionSoFar(chart, s0, commands, said + [Farewell], |commands|, now, false)
  {
    assert commands[|commands|..] == [];
  }

  /**
    One more line of a session: after line n the session has also said that
    line's output, stands in that line's snapshot, and goes on unless it was quit.
  */
  lemma PlayOn(chart: Chart, s0: State, lines: seq<string>, said: seq<Message>, n: nat, now: State)
    requires Closed(chart) && Valid(chart, s0) && Valid(chart, now) && n < |lines|
    requires SessionSoFar(chart, s0, ParseAll(lines), said, n, now, true)
    ensures var t := Step(chart, now, lines[n]);
            Valid(chart, t.state) && SessionSoFar(chart, s0, ParseAll(lines), said + t.out, n + 1, t.state, t.keepGoing)
  {
    PlayLine(chart, now, lines, n);
    var t := Step(chart, now, lines[n]);
    if t.keepGoing {
      ResumeTwice(said, n, t.out, 1, Play(chart, t.state, ParseAll(lines)[n + 1..]));
    }
  }

  /** Whatever is typed, the session's last message is the farewell. */
  lemma {:induction false} PlayEndsWithFarewell(chart: Chart, s: State, commands: seq<Command>)
    requires Closed(chart) && Valid(chart, s)
    ensures EndsWithFarewell(Play(chart, s, commands).out)
    decreases |commands|
  {
    if commands != [] {
      PlayFirst(chart, s, commands);
      var t := Execute(chart, s, commands[0]);
      if t.keepGoing {
        PlayEndsWithFarewell(chart, t.state, commands[1..]);
        FarewellAfter(t.out, Play(chart, t.state, commands[1..]).out);
      }
    }
  }

  predicate EndsWithFarewell(out: seq<Message>)
  {
    out != [] && out[|out| - 1] == Farewell
  }

  lemma FarewellAfter(said: seq<Message>, out: seq<Message>)
    requires EndsWithFarewell(out)
    ensures EndsWithFarewell(said + out)
  {
    assert (said + out)[|said + out| - 1] == out[|out| - 1];
  }

  /** Whatever is typed, every item is still on an island or in the bag when the session ends. */
  lemma {:induction false} PlayConserves(chart: Chart, s: State, commands: seq<Command>)
    requires Closed(chart) && Valid(chart, s)
    ensures AllItems(Play(chart, s, commands).state) == AllItems(s)
    decreases |commands|
  {
    if commands != [] {
      ExecuteConserves(chart, s, commands[0]);
      var t := Execute(chart, s, commands[0]);
      if t.keepGoing {
        PlayConserves(chart, t.state, commands[1..]);
      }
    }
  }

  /** A go along a direction label: the player follows that exit if the island has one, and stays put otherwise. */
  lemma GoExit(chart: Chart, s: State, d: string)
    requires Closed(chart) && Valid(chart, s) && d in Directions
    ensures var r := Execute(chart, s, Go([d]));
            && r.keepGoing
            && (d in chart[s.location] ==> r.state == s.(location := chart[s.location][d]))
            && (d !in chart[s.location] ==> r.state == s)
  {
    DirectionIsLowerWord(d);
    assert ParseDirection(d) == Some(d);
  }

  /**
    handle_go along one exit label: the player moves exactly where Walk's
    single step leads, or stays put when there is no such exit, and carries
    on with the bag and the islands as they were.
  */
  lemma WalkOneIsGo(chart: Chart, s: State, d: string)
    requires Closed(chart) && Valid(chart, s) && d in Directions
    ensures var r := Execute(chart, s, Go([d]));
            && r.keepGoing && r.state.inventory == s.inventory && r.state.items == s.items
            && (Walk(chart, s.location, [d]).Some? ==> r.state.location == Walk(chart, s.location, [d]).value)
            && (Walk(chart, s.location, [d]).None? ==> r.state == s)
  {
    GoExit(chart, s, d);
    WalkOne(chart, s.location, d);
  }

  /**
    Typing the direction names of a route, one per line, takes the player
    to where the route ends, with the bag and every island unchanged.
  */
  lemma WalkIsPlay(chart: Chart, s: State, dirs: seq<string>, b: string)
    requires Closed(chart) && Valid(chart, s)
    requires forall i :: 0 <= i < |dirs| ==> dirs[i] in Directions
    requires Walk(chart, s.location, dirs) == Some(b)
    ensures Play(chart, s, ParseAll(dirs)).state == s.(location := b)
  {
    assert dirs[0..] == dirs;
    WalkIsPlayFrom(chart, s, dirs, 0, b);
    assert ParseAll(dirs)[0..] == ParseAll(dirs);
  }

  /** WalkIsPlay for the lines from the i-th on. */
  lemma {:induction false} WalkIsPlayFrom(chart: Chart, s: State, lines: seq<string>, i: nat, b: string)
    requires Closed(chart) && Valid(chart, s) && i <= |lines|
    requires forall j :: i <= j < |lines| ==> lines[j] in Directions
    requires Walk(chart, s.location, lines[i..]) == Some(b)
    ensures Play(chart, s, ParseAll(lines)[i..]).state == s.(location := b)
    decreases |lines| - i
  {
    if i < |lines| {
      WalkFirst(chart, s.location, lines[i..], b);
      assert lines[i..][1..] == lines[i + 1..];
      PlayGoLine(chart, s, lines, i);
      WalkIsPlayFrom(chart, s.(location := chart[s.location][lines[i]]), lines, i + 1, b);
    }
  }

  /** When line i names a direction the island has an exit for, the session from line i on starts by following that exit. */
  lemma PlayGoLine(chart: Chart, s: State, lines: seq<string>, i: nat)
    requires Closed(chart) && Valid(chart, s) && i < |lines|
    requires lines[i] in Directions && lines[i] in chart[s.location]
    ensures Play(chart, s, ParseAll(lines)[i..]).state
         == Play(chart, s.(location := chart[s.location][lines[i]]), ParseAll(lines)[i + 1..]).state
  {
    PlayLine(chart, s, lines, i);
    ParseDirectionLine(lines[i]);
    GoExit(chart, s, lines[i]);
  }

  /** Every exit of the shipped layout is labelled with a full direction name. */
  lemma LayoutLabels()
    ensures forall k, d :: k in Layout && d in Layout[k] ==> d in Directions
  {
    LayoutRows();
  }

  /** A route that exists on a chart whose exits are labelled by directions is made of directions. */
  lemma {:induction false} WalkLabels(chart: Chart, a: string, dirs: seq<string>)
    requires forall k, d :: k in chart && d in chart[k] ==> d in Directions
    requires Walk(chart, a, dirs).Some?
    ensures forall i :: 0 <= i < |dirs| ==> dirs[i] in Directions
    decreases |dirs|
  {
    if dirs != [] {
      WalkLabels(chart, chart[a][dirs[0]], dirs[1..]);
      assert forall i :: 1 <= i < |dirs| ==> dirs[i] == dirs[1..][i - 1];
    }
  }

  /**
    On the shipped islands, some sequence of typed lines takes the player from
    wherever they stand to any island, with the bag and every island unchanged:
    the game can be won from anywhere.
  */
  lemma GoAnywhere(s: State, b: string)
    requires Valid(Layout, s) && b in Layout
    ensures Closed(Layout) && exists lines :: Play(Layout, s, ParseAll(lines)).state == s.(location := b)
  {
    LayoutClosed();
    LayoutStronglyConnected(s.location, b);
    var dirs :| Walk(Layout, s.location, dirs) == Some(b);
    LayoutLabels();
    WalkLabels(Layout, s.location, dirs);
    WalkIsPlay(Layout, s, dirs, b);
  }
}

=== FILE: search.dfy ===
/**
  How take and drop pick an item out of a list: the first entry whose lower
  case contains the (lower-cased) words typed, removed with list.remove.
*/
module ItemSearch {
  import opened Text

  /** `key in item.lower()` */
  predicate Matches(item: string, key: string)
  {
    Contains(Lower(item), key)
  }

  predicate NoneMatch(items: seq<string>, key: string)
  {
    forall j :: 0 <= j < |items| ==> !Matches(items[j], key)
  }

  /** Index `i` holds the first entry of `items` that matches `key`. */
  predicate IsFirstMatch(items: seq<string>, key: string, i: int)
  {
    0 <= i < |items| && Matches(items[i], key) && NoneMatch(items[..i], key)
  }

  /** `[i for i in items if key in i.lower()]`: the matching entries, in list order. */
  function MatchesOf(items: seq<string>, key: string): (r: seq<string>)
    ensures |r| <= |items|
    ensures forall k :: 0 <= k < |r| ==> r[k] in items && Matches(r[k], key)
    ensures r == [] <==> NoneMatch(items, key)
  {
    if items == [] then []
    else if Matches(items[0], key) then [items[0]] + MatchesOf(items[1..], key)
    else MatchesOf(items[1..], key)
  }

  /** list.remove(x): the first occurrence of x taken out. */
  function RemoveFirst(s: seq<string>, x: string): (r: seq<string>)
    requires x in s
    ensures |r| == |s| - 1
    ensures multiset(r) == multiset(s) - multiset{x}
  {
    assert s == [s[0]] + s[1..];
    if s[0] == x then s[1..] else [s[0]] + RemoveFirst(s[1..], x)
  }

  /** Removing the first occurrence of s[i] takes out exactly position i. */
  lemma {:induction false} RemoveFirstAt(s: seq<string>, i: nat)
    requires i < |s| && s[i] !in s[..i]
    ensures RemoveFirst(s, s[i]) == s[..i] + s[i + 1..]
  {
    if i == 0 {
      assert s[..0] + s[1..] == s[1..];
    } else {
      var t := s[1..];
      assert s[0] == s[..i][0];
      assert t[i - 1] == s[i] && t[..i - 1] == s[..i][1..];
      RemoveFirstAt(t, i - 1);
      assert RemoveFirst(s, s[i]) == [s[0]] + RemoveFirst(t, s[i]);
      WithoutAt(s, i);
    }
  }

  /** Leaving out position i > 0 keeps the head and leaves out position i - 1 of the tail. */
  lemma WithoutAt(s: seq<string>, i: nat)
    requires 0 < i < |s|
    ensures s[..i] + s[i + 1..] == [s[0]] + (s[1..][..i - 1] + s[1..][i..])
  {
    var t := s[1..];
    assert s[..i] == [s[0]] + t[..i - 1];
    assert s[i + 1..] == t[i..];
  }

  /** The head of the match list is the first matching entry. */
  lemma {:induction false} FirstOfMatches(items: seq<string>, key: string)
    requires !NoneMatch(items, key)
    ensures exists i :: IsFirstMatch(items, key, i) && MatchesOf(items, key)[0] == items[i]
  {
    if Matches(items[0], key) {
      assert items[..0] == [];
      assert IsFirstMatch(items, key, 0);
    } else {
      assert !NoneMatch(items[1..], key) by {
        var j :| 0 <= j < |items| && Matches(items[j], key);
        assert items[1..][j - 1] == items[j];
      }
      FirstOfMatches(items[1..], key);
      var i :| IsFirstMatch(items[1..], key, i) && MatchesOf(items[1..], key)[0] == items[1..][i];
      assert items[..i + 1] == [items[0]] + items[1..][..i];
      assert IsFirstMatch(items, key, i + 1);
    }
  }

  /**
    What take and drop do to the list they search: `list.remove(matches[0])`
    takes out exactly the first matching entry, leaving the others in order.
  */
  lemma TakeOutFirstMatch(items: seq<string>, key: string)
    requires !NoneMatch(items, key)
    ensures MatchesOf(items, key)[0] in items
    ensures exists i :: IsFirstMatch(items, key, i)
                     && MatchesOf(items, key)[0] == items[i]
                     && RemoveFirst(items, items[i]) == items[..i] + items[i + 1..]
  {
    FirstOfMatches(items, key);
    var i :| IsFirstMatch(items, key, i) && MatchesOf(items, key)[0] == items[i];
    RemoveFirstAt(items, i);
  }
}

=== FILE: text.dfy ===
/**
  The few Python string built-ins the game engine leans on, as pure functions:
  str.isspace, str.lower, str.strip, str.split() with no separator,
  " ".join and the substring test `needle in hay`.

  Lower-casing is ASCII only (see README, "Left out"); the whitespace set is
  the one Python's str.split() and str.strip() use for a `str`.
*/
module Text {

  /** A character Python's str.split() and str.strip() treat as whitespace. */
  predicate IsSpace(c: char)
  {
    || c == ' '
    || ('\t' <= c <= '\r')
    || ('\U{1C}' <= c <= '\U{1F}')
    || c == '\U{85}' || c == '\U{A0}' || c == '\U{1680}'
    || ('\U{2000}' <= c <= '\U{200A}')
    || c == '\U{2028}' || c == '\U{2029}' || c == '\U{202F}'
    || c == '\U{205F}' || c == '\U{3000}'
  }

  predicate AllSpace(s: string)
  {
    forall i :: 0 <= i < |s| ==> IsSpace(s[i])
  }

  /** What str.split() can yield: a non-empty run of non-whitespace. */
  predicate IsWord(t: string)
  {
    t != [] && forall i :: 0 <= i < |t| ==> !IsSpace(t[i])
  }

  predicate IsUpper(c: char)
  {
    'A' <= c <= 'Z'
  }

  /** str.lower() on one character, restricted to ASCII letters. */
  function LowerChar(c: char): (d: char)
    ensures !IsUpper(d)
    ensures IsUpper(c) <==> d != c
    ensures IsSpace(d) <==> IsSpace(c)
  {
    if IsUpper(c) then (c as int - 'A' as int + 'a' as int) as char else c
  }

  /** str.lower(): every ASCII capital replaced by its small letter. */
  function Lower(s: string): (r: string)
    ensures |r| == |s|
    ensures forall i :: 0 <= i < |s| ==> r[i] == LowerChar(s[i])
  {
    seq(|s|, i requires 0 <= i < |s| => LowerChar(s[i]))
  }

  /** Lower-casing a word gives a word. */
  lemma LowerWord(w: string)
    requires IsWord(w)
    ensures IsWord(Lower(w))
  {
    var r := Lower(w);
    forall i | 0 <= i < |r|
      ensures !IsSpace(r[i])
    {
      assert r[i] == LowerChar(w[i]);
    }
  }

  /** Lower-casing twice is lower-casing once, so a lower-cased token is its own lower case. */
  lemma LowerIdempotent(s: string)
    ensures Lower(Lower(s)) == Lower(s)
  {
    forall i | 0 <= i < |s|
      ensures Lower(Lower(s))[i] == Lower(s)[i]
    {
      assert !IsUpper(Lower(s)[i]);
    }
  }

  /** Leading whitespace removed (the first half of str.strip()). */
  function TrimStart(s: string): (r: string)
    ensures |r| <= |s| && r == s[|s| - |r|..]
    ensures AllSpace(s[..|s| - |r|])
    ensures r != [] ==> !IsSpace(r[0])
  {
    if s != [] && IsSpace(s[0]) then
      var r := TrimStart(s[1..]);
      SpaceBefore(s, r);
      r
    else s
  }

  /** A whitespace first character, then the rest trimmed to r. */
  lemma SpaceBefore(s: string, r: string)
    requires s != [] && IsSpace(s[0]) && |r| < |s|
    requires r == s[1..][|s| - 1 - |r|..] && AllSpace(s[1..][..|s| - 1 - |r|])
    ensures r == s[|s| - |r|..] && AllSpace(s[..|s| - |r|])
  {
    var n := |s| - |r|;
    assert s[..n] == [s[0]] + s[1..][..n - 1];
  }

  /** Trailing whitespace removed (the second half of str.strip()). */
  function TrimEnd(s: string): (r: string)
    ensures |r| <= |s| && r == s[..|r|]
    ensures AllSpace(s[|r|..])
    ensures r != [] ==> !IsSpace(r[|r| - 1])
  {
    if s != [] && IsSpace(s[|s| - 1]) then
      var r := TrimEnd(s[..|s| - 1]);
      SpaceAfter(s, |r|);
      r
    else s
  }

  /** Whitespace after position n of all but the last character, then a whitespace last character. */
  lemma SpaceAfter(s: string, n: nat)
    requires n < |s| && IsSpace(s[|s| - 1]) && AllSpace(s[..|s| - 1][n..])
    ensures AllSpace(s[n..]) && s[..|s| - 1][..n] == s[..n]
  {
    assert s[n..] == s[..|s| - 1][n..] + [s[|s| - 1]];
  }

  /** str.strip(): a slice of the input with no whitespace at either end. */
  function Strip(s: string): (r: string)
    ensures exists i: nat :: StrippedAt(s, r, i)
    ensures r != [] ==> !IsSpace(r[0]) && !IsSpace(r[|r| - 1])
    ensures r == [] <==> AllSpace(s)
  {
    var t := TrimStart(s);
    var r := TrimEnd(t);
    StripAt(s, t, r);
    r
  }

  /** r is s from offset i on, with only whitespace before it and after it. */
  predicate StrippedAt(s: string, r: string, i: nat)
  {
    i + |r| <= |s| && r == s[i..i + |r|] && AllSpace(s[..i]) && AllSpace(s[i + |r|..])
  }

  /** The strip of s is r, found at the offset where the leading whitespace ends. */
  lemma StripAt(s: string, t: string, r: string)
    requires |t| <= |s| && t == s[|s| - |t|..] && AllSpace(s[..|s| - |t|])
    requires t != [] ==> !IsSpace(t[0])
    requires |r| <= |t| && r == t[..|r|] && AllSpace(t[|r|..])
    ensures StrippedAt(s, r, |s| - |t|)
    ensures r == [] <==> AllSpace(s)
  {
    var i := |s| - |t|;
    assert s[i + |r|..] == t[|r|..];
    if r == [] {
      assert s == s[..i] + t;
    } else {
      assert s[i] == r[0];
    }
  }

  /** Length of the leading run of non-whitespace characters. */
  function WordEnd(s: string): (n: nat)
    ensures n <= |s|
    ensures forall i :: 0 <= i < n ==> !IsSpace(s[i])
    ensures n < |s| ==> IsSpace(s[n])
  {
    if s == [] || IsSpace(s[0]) then 0 else 1 + WordEnd(s[1..])
  }

  /**
    str.split() with no separator: the maximal runs of non-whitespace, in
    order. Every token is a word, and there are none exactly when the input
    is whitespace only.
  */
  function Split(s: string): (tokens: seq<string>)
    ensures forall k :: 0 <= k < |tokens| ==> IsWord(tokens[k])
    ensures tokens == [] <==> AllSpace(s)
    decreases |s|
  {
    if s == [] then []
    else if IsSpace(s[0]) then Split(s[1..])
    else
      var n := WordEnd(s);
      [s[..n]] + Split(s[n..])
  }

  /** The list comprehension `[t for t in tokens if t]`. */
  function DropEmpty(tokens: seq<string>): (r: seq<string>)
    ensures forall k :: 0 <= k < |r| ==> r[k] != []
    ensures |r| <= |tokens|
  {
    if tokens == [] then []
    else if tokens[0] == [] then DropEmpty(tokens[1..])
    else [tokens[0]] + DropEmpty(tokens[1..])
  }

  /** The filter after split() removes nothing: split() never yields an empty token. */
  lemma {:induction false} DropEmptyOfWords(tokens: seq<string>)
    requires forall k :: 0 <= k < |tokens| ==> IsWord(tokens[k])
    ensures DropEmpty(tokens) == tokens
  {
    if tokens != [] {
      DropEmptyOfWords(tokens[1..]);
    }
  }

  /** " ".join(parts) */
  function JoinSpace(parts: seq<string>): (r: string)
  {
    if parts == [] then ""
    else if |parts| == 1 then parts[0]
    else parts[0] + " " + JoinSpace(parts[1..])
  }

  lemma {:induction false} SplitSkipsLeadingSpace(pre: string, s: string)
    requires AllSpace(pre)
    ensures Split(pre + s) == Split(s)
  {
    if pre == [] {
      assert pre + s == s;
    } else {
      assert IsSpace((pre + s)[0]);
      assert (pre + s)[1..] == pre[1..] + s;
      SplitSkipsLeadingSpace(pre[1..], s);
    }
  }

  /** A word followed by whitespace (or nothing) ends where it ended alone. */
  lemma {:induction false} WordEndAppend(s: string, t: string)
    requires WordEnd(s) < |s| || t == [] || IsSpace(t[0])
    ensures WordEnd(s + t) == WordEnd(s)
  {
    if s != [] && !IsSpace(s[0]) {
      assert (s + t)[1..] == s[1..] + t;
      WordEndAppend(s[1..], t);
    } else if s == [] {
      assert s + t == t;
    }
  }

  lemma {:induction false} SplitIgnoresTrailingSpace(s: string, post: string)
    requires AllSpace(post)
    ensures Split(s + post) == Split(s)
    decreases |s|
  {
    if s == [] {
      assert s + post == post;
    } else if IsSpace(s[0]) {
      assert (s + post)[1..] == s[1..] + post;
      SplitIgnoresTrailingSpace(s[1..], post);
    } else {
      var n := WordEnd(s);
      WordEndAppend(s, post);
      assert (s + post)[..n] == s[..n];
      assert (s + post)[n..] == s[n..] + post;
      SplitIgnoresTrailingSpace(s[n..], post);
    }
  }

  /** A word alone on a line splits into itself. */
  lemma SplitWord(w: string)
    requires IsWord(w)
    ensures Split(w) == [w]
  {
    WordEndAppend(w, []);
    assert w + [] == w;
    assert w[WordEnd(w)..] == [];
  }

  /**
    A word followed by a run of whitespace is the first token, and the tokens
    after it are those of the rest of the line: with SplitSkipsLeadingSpace,
    SplitWord and the whitespace-only case, this fixes the tokens of every line.
  */
  lemma SplitWordThenSpace(w: string, sp: string, s: string)
    requires IsWord(w) && sp != [] && AllSpace(sp)
    ensures Split(w + sp + s) == [w] + Split(s)
  {
    var line := w + (sp + s);
    assert w + sp + s == line;
    WordEndAppend(w, []);
    assert w + [] == w;
    WordEndAppend(w, sp + s);
    assert line[..|w|] == w;
    assert line[|w|..] == sp + s;
    SplitSkipsLeadingSpace(sp, s);
  }

  /** `command.strip().split()` yields the same tokens as `command.split()`. */
  lemma SplitOfStrip(s: string)
    ensures Split(Strip(s)) == Split(s)
  {
    SplitOfTrimStart(s);
    SplitOfTrimEnd(TrimStart(s));
  }

  lemma SplitOfTrimStart(s: string)
    ensures Split(TrimStart(s)) == Split(s)
  {
    var t := TrimStart(s);
    var pre := s[..|s| - |t|];
    assert s == pre + t;
    SplitSkipsLeadingSpace(pre, t);
  }

  lemma SplitOfTrimEnd(t: string)
    ensures Split(TrimEnd(t)) == Split(t)
  {
    var r := TrimEnd(t);
    assert t == r + t[|r|..];
    SplitIgnoresTrailingSpace(r, t[|r|..]);
  }

  /** Round trip: splitting words joined by single spaces gives the words back. */
  lemma {:induction false} SplitJoinSpace(words: seq<string>)
    requires forall k :: 0 <= k < |words| ==> IsWord(words[k])
    ensures Split(JoinSpace(words)) == words
  {
    if words == [] {
    } else {
      var w := words[0];
      WordEndAppend(w, []);
      assert w + [] == w;
      if |words| == 1 {
        assert w[WordEnd(w)..] == [];
      } else {
        var rest := JoinSpace(words[1..]);
        var line := w + " " + rest;
        assert line == w + (" " + rest);
        WordEndAppend(w, " " + rest);
        assert line[..|w|] == w;
        assert line[|w|..] == " " + rest;
        SplitSkipsLeadingSpace(" ", rest);
        SplitJoinSpace(words[1..]);
      }
    }
  }

  /** `needle` occurs in `hay` starting at index `i`. */
  predicate OccursAt(hay: string, needle: string, i: nat)
  {
    i + |needle| <= |hay| && hay[i..i + |needle|] == needle
  }

  /** Python's `needle in hay` for strings. */
  predicate Contains(hay: string, needle: string)
    decreases |hay|
  {
    needle <= hay || (hay != [] && Contains(hay[1..], needle))
  }

  /** The recursive test agrees with "occurs at some offset". */
  lemma {:induction false} ContainsIff(hay: string, needle: string)
    ensures Contains(hay, needle) <==> exists i: nat :: OccursAt(hay, needle, i)
    decreases |hay|
  {
    if needle <= hay {
      assert OccursAt(hay, needle, 0);
    } else if hay == [] {
      forall i: nat ensures !OccursAt(hay, needle, i) {}
    } else {
      ContainsIff(hay[1..], needle);
      if Contains(hay[1..], needle) {
        var i: nat :| OccursAt(hay[1..], needle, i);
        OccursShift(hay, needle, i);
      } else {
        forall i: nat | OccursAt(hay, needle, i) ensures false {
          if i != 0 {
            OccursShift(hay, needle, i - 1);
          }
        }
      }
    }
  }

  /** An occurrence past the first character is an occurrence in the rest, one place earlier. */
  lemma OccursShift(hay: string, needle: string, i: nat)
    requires hay != []
    ensures OccursAt(hay, needle, i + 1) <==> OccursAt(hay[1..], needle, i)
  {
    if i + 1 + |needle| <= |hay| {
      assert hay[i + 1..i + 1 + |needle|] == hay[1..][i..i + |needle|];
    }
  }
}

=== FILE: world.dfy ===
/**
  The world graph: islands with a mutable list of items and a fixed
  direction -> island-name exit table, collected in a map from island name to
  island. The static layout of the shipped world is kept as plain values
  (`Layout`, `InitialItems`) from which `NewWorld` builds the islands.
*/
module Islands {
  import opened Wrappers

  /** An island. Its name and exits never change; its item list does, in place. */
  class Island {
    const name: string
    var items: seq<string>
    const exits: map<string, string>

    constructor (name: string, items: seq<string>, exits: map<string, string>)
      ensures this.name == name && this.items == items && this.exits == exits
    {
      this.name := name;
      this.items := items;
      this.exits := exits;
    }
  }

  /** The world: island name -> island. */
  type World = map<string, Island>

  /** The exits of every island: island name -> direction -> island name. */
  type Chart = map<string, map<string, string>>

  /** Every exit leads to an island of the chart. */
  predicate Closed(chart: Chart)
  {
    forall k, d :: k in chart && d in chart[k] ==> chart[k][d] in chart
  }

  /** The exits of every island of the world. */
  function ChartOf(w: World): (chart: Chart)
    ensures chart.Keys == w.Keys
    ensures forall k :: k in w ==> chart[k] == w[k].exits
  {
    map k | k in w :: w[k].exits
  }

  /** The home island: where a game starts and where victory is claimed. */
  const PirateCove: string := "Pirate Cove"
  const StartIsland: string := PirateCove

  /** The exits of every island of the shipped world. */
  const Layout: Chart := map[
    "Pirate Cove" := map["east" := "Skull Key", "south" := "Mermaid Shoals"],
    "Skull Key" := map["west" := "Pirate Cove", "east" := "Blackwater Cay"],
    "Blackwater Cay" := map["west" := "Skull Key", "south" := "Rumrunner Atoll"],
    "Rumrunner Atoll" := map["north" := "Blackwater Cay", "west" := "Mermaid Shoals"],
    "Mermaid Shoals" := map["north" := "Pirate Cove", "east" := "Rumrunner Atoll", "south" := "Cutlass Bay"],
    "Cutlass Bay" := map["north" := "Mermaid Shoals", "east" := "Doubloon Point"],
    "Doubloon Point" := map["west" := "Cutlass Bay"]
  ]

  /** The items lying on every island when the program starts. */
  const InitialItems: map<string, seq<string>> := map[
    "Pirate Cove" := ["note"],
    "Skull Key" := ["spyglass"],
    "Blackwater Cay" := ["compass"],
    "Rumrunner Atoll" := ["rum"],
    "Mermaid Shoals" := ["map piece"],
    "Cutlass Bay" := ["cutlass"],
    "Doubloon Point" := ["doubloon"]
  ]

  /**
    Every island is filed under its own name (so distinct names are distinct
    islands), and every exit leads to an island of the world.
  */
  predicate WellFormed(w: World)
  {
    && (forall k :: k in w ==> w[k].name == k)
    && Closed(ChartOf(w))
  }

  /** The item lists of all islands, as a value. */
  function Items(w: World): (m: map<string, seq<string>>)
    reads w.Values
    ensures m.Keys == w.Keys
    ensures forall k :: k in w ==> m[k] == w[k].items
  {
    map k | k in w :: w[k].items
  }

  /**
    The one way items on an island change: island `k`'s list becomes `s`,
    and no other island's list changes.
  */
  method SetItems(w: World, k: string, s: seq<string>)
    requires WellFormed(w) && k in w
    modifies w[k]
    ensures w[k].items == s
    ensures Items(w) == old(Items(w))[k := s]
  {
    w[k].items := s;
  }

  /** Every item lying on some island, counted with multiplicity. */
  ghost function Total(m: map<string, seq<string>>): multiset<string>
    decreases |m|
  {
    if m == map[] then multiset{}
    else
      var k :| k in m;
      assert |m - {k}| < |m| by { MapRemoveCard(m, k); }
      multiset(m[k]) + Total(m - {k})
  }

  lemma MapRemoveCard(m: map<string, seq<string>>, k: string)
    requires k in m
    ensures |m - {k}| == |m| - 1
  {
    assert (m - {k}).Keys == m.Keys - {k};
    assert |m.Keys - {k}| == |m.Keys| - 1;
  }

  /** The total splits into any one island's items and the rest. */
  lemma {:induction false} TotalRemove(m: map<string, seq<string>>, k: string)
    requires k in m
    ensures Total(m) == multiset(m[k]) + Total(m - {k})
    decreases |m|
  {
    var j :| j in m && Total(m) == multiset(m[j]) + Total(m - {j});
    if j != k {
      MapRemoveCard(m, j);
      MapRemoveCard(m, k);
      TotalRemove(m - {j}, k);
      TotalRemove(m - {k}, j);
      assert m - {j} - {k} == m - {k} - {j};
    }
  }

  /**
    Replacing one island's item list changes the total by exactly what was
    taken out and what was put in.
  */
  lemma TotalUpdate(m: map<string, seq<string>>, k: string, s: seq<string>)
    requires k in m
    ensures Total(m[k := s]) + multiset(m[k]) == Total(m) + multiset(s)
  {
    TotalRemove(m, k);
    TotalRemove(m[k := s], k);
    assert m[k := s] - {k} == m - {k};
  }

  /**
    Moving item `x` out of island `k` into the bag `inv` keeps every item
    somewhere: the islands' total plus the bag is unchanged.
  */
  lemma MoveToBag(m: map<string, seq<string>>, k: string, rest: seq<string>, inv: seq<string>, x: string)
    requires k in m && multiset(rest) + multiset{x} == multiset(m[k])
    ensures Total(m[k := rest]) + multiset(inv + [x]) == Total(m) + multiset(inv)
  {
    TotalUpdate(m, k, rest);
    var before, after := Total(m), Total(m[k := rest]);
    assert after + multiset(m[k]) == before + multiset(rest);
    assert after + multiset{x} == before by {
      forall y ensures (after + multiset{x})[y] == before[y] {
        assert (after + multiset(m[k]))[y] == (before + multiset(rest))[y];
        assert multiset(m[k])[y] == multiset(rest)[y] + multiset{x}[y];
      }
    }
    assert multiset(inv + [x]) == multiset(inv) + multiset{x};
  }

  /** Moving item `x` out of the bag onto the end of island `k`'s items, likewise. */
  lemma MoveToIsland(m: map<string, seq<string>>, k: string, inv: seq<string>, rest: seq<string>, x: string)
    requires k in m && multiset(rest) + multiset{x} == multiset(inv)
    ensures Total(m[k := m[k] + [x]]) + multiset(rest) == Total(m) + multiset(inv)
  {
    TotalUpdate(m, k, m[k] + [x]);
    var before, after := Total(m), Total(m[k := m[k] + [x]]);
    assert multiset(m[k] + [x]) == multiset(m[k]) + multiset{x};
    assert after == before + multiset{x} by {
      forall y ensures after[y] == (before + multiset{x})[y] {
        assert (after + multiset(m[k]))[y] == (before + multiset(m[k] + [x]))[y];
      }
    }
  }

  /** Where following `dirs` from `from` leads, or None if some exit is missing. */
  function Walk(chart: Chart, from: string, dirs: seq<string>): Option<string>
    decreases |dirs|
  {
    if dirs == [] then Some(from)
    else if from in chart && dirs[0] in chart[from] then Walk(chart, chart[from][dirs[0]], dirs[1..])
    else None
  }

  lemma {:induction false} WalkAppend(chart: Chart, a: string, b: string, p: seq<string>, q: seq<string>)
    requires Walk(chart, a, p) == Some(b)
    ensures Walk(chart, a, p + q) == Walk(chart, b, q)
    decreases |p|
  {
    if p != [] {
      assert (p + q)[1..] == p[1..] + q;
      WalkAppend(chart, chart[a][p[0]], b, p[1..], q);
    } else {
      assert p + q == q;
    }
  }

  /** A one-step route follows the exit with that label, if there is one. */
  lemma WalkOne(chart: Chart, a: string, d: string)
    ensures Walk(chart, a, [d]) == if a in chart && d in chart[a] then Some(chart[a][d]) else None
  {
    assert [d][1..] == [];
  }

  /** A route that ends somewhere starts with an exit of its first island, and the rest of it ends at the same place. */
  lemma WalkFirst(chart: Chart, a: string, dirs: seq<string>, b: string)
    requires dirs != [] && Walk(chart, a, dirs) == Some(b)
    ensures a in chart && dirs[0] in chart[a] && Walk(chart, chart[a][dirs[0]], dirs[1..]) == Some(b)
  {
  }

  /** The exits of each shipped island, one island at a time. */
  lemma LayoutRows()
    ensures Layout["Pirate Cove"] == map["east" := "Skull Key", "south" := "Mermaid Shoals"]
    ensures Layout["Skull Key"] == map["west" := "Pirate Cove", "east" := "Blackwater Cay"]
    ensures Layout["Blackwater Cay"] == map["west" := "Skull Key", "south" := "Rumrunner Atoll"]
    ensures Layout["Rumrunner Atoll"] == map["north" := "Blackwater Cay", "west" := "Mermaid Shoals"]
    ensures Layout["Mermaid Shoals"] == map["north" := "Pirate Cove", "east" := "Rumrunner Atoll", "south" := "Cutlass Bay"]
    ensures Layout["Cutlass Bay"] == map["north" := "Mermaid Shoals", "east" := "Doubloon Point"]
    ensures Layout["Doubloon Point"] == map["west" := "Cutlass Bay"]
    ensures Layout.Keys == {"Pirate Cove", "Skull Key", "Blackwater Cay", "Rumrunner Atoll",
                            "Mermaid Shoals", "Cutlass Bay", "Doubloon Point"}
  {
  }

  /** The shipped layout names exactly seven islands. */
  lemma LayoutIsland(k: string)
    requires k in Layout
    ensures k == "Pirate Cove" || k == "Skull Key" || k == "Blackwater Cay" || k == "Rumrunner Atoll"
         || k == "Mermaid Shoals" || k == "Cutlass Bay" || k == "Doubloon Point"
  {
    LayoutRows();
  }

  /** Every exit of the shipped layout leads to an island of the layout. */
  lemma LayoutClosed()
    ensures Closed(Layout)
  {
  }

  /** Every single exit of the shipped layout, the steps the routes below are made of. */
  lemma LayoutEdges()
    ensures Walk(Layout, "Pirate Cove", ["east"]) == Some("Skull Key")
    ensures Walk(Layout, "Pirate Cove", ["south"]) == Some("Mermaid Shoals")
    ensures Walk(Layout, "Skull Key", ["west"]) == Some("Pirate Cove")
    ensures Walk(Layout, "Skull Key", ["east"]) == Some("Blackwater Cay")
    ensures Walk(Layout, "Blackwater Cay", ["west"]) == Some("Skull Key")
    ensures Walk(Layout, "Blackwater Cay", ["south"]) == Some("Rumrunner Atoll")
    ensures Walk(Layout, "Mermaid Shoals", ["north"]) == Some("Pirate Cove")
    ensures Walk(Layout, "Mermaid Shoals", ["east"]) == Some("Rumrunner Atoll")
    ensures Walk(Layout, "Mermaid Shoals", ["south"]) == Some("Cutlass Bay")
    ensures Walk(Layout, "Rumrunner Atoll", ["north"]) == Some("Blackwater Cay")
    ensures Walk(Layout, "Rumrunner Atoll", ["west"]) == Some("Mermaid Shoals")
    ensures Walk(Layout, "Cutlass Bay", ["north"]) == Some("Mermaid Shoals")
    ensures Walk(Layout, "Cutlass Bay", ["east"]) == Some("Doubloon Point")
    ensures Walk(Layout, "Doubloon Point", ["west"]) == Some("Cutlass Bay")
  {
    LayoutRows();
  }

  /** Following DIRS from island A of the shipped layout ends on island B. */
  lemma Reach(a: string, b: string, dirs: seq<string>)
    requires Walk(Layout, a, dirs) == Some(b)
    ensures exists d :: Walk(Layout, a, d) == Some(b)
  {
  }

  lemma {:induction false} HomeReachesAll(k: string)
    requires k in Layout
    ensures exists dirs :: Walk(Layout, StartIsland, dirs) == Some(k)
  {
    LayoutEdges();
    if k == StartIsland {
      Reach(StartIsland, k, []);
    } else if k == "Skull Key" {
      Reach(StartIsland, k, ["east"]);
    } else if k == "Mermaid Shoals" {
      Reach(StartIsland, k, ["south"]);
    } else if k == "Blackwater Cay" {
      WalkAppend(Layout, StartIsland, "Skull Key", ["east"], ["east"]);
      Reach(StartIsland, k, ["east"] + ["east"]);
    } else if k == "Rumrunner Atoll" {
      WalkAppend(Layout, StartIsland, "Mermaid Shoals", ["south"], ["east"]);
      Reach(StartIsland, k, ["south"] + ["east"]);
    } else if k == "Cutlass Bay" {
      WalkAppend(Layout, StartIsland, "Mermaid Shoals", ["south"], ["south"]);
      Reach(StartIsland, k, ["south"] + ["south"]);
    } else if k == "Doubloon Point" {
      WalkAppend(Layout, StartIsland, "Mermaid Shoals", ["south"], ["south"]);
      WalkAppend(Layout, StartIsland, "Cutlass Bay", ["south"] + ["south"], ["east"]);
      Reach(StartIsland, k, ["south"] + ["south"] + ["east"]);
    } else {
      LayoutIsland(k);
      assert false;
    }
  }

  lemma {:induction false} AllReachHome(k: string)
    requires k in Layout
    ensures exists dirs :: Walk(Layout, k, dirs) == Some(StartIsland)
  {
    LayoutEdges();
    if k == StartIsland {
      Reach(k, StartIsland, []);
    } else if k == "Skull Key" {
      Reach(k, StartIsland, ["west"]);
    } else if k == "Mermaid Shoals" {
      Reach(k, StartIsland, ["north"]);
    } else if k == "Blackwater Cay" {
      WalkAppend(Layout, k, "Skull Key", ["west"], ["west"]);
      Reach(k, StartIsland, ["west"] + ["west"]);
    } else if k == "Rumrunner Atoll" {
      WalkAppend(Layout, k, "Mermaid Shoals", ["west"], ["north"]);
      Reach(k, StartIsland, ["west"] + ["north"]);
    } else if k == "Cutlass Bay" {
      WalkAppend(Layout, k, "Mermaid Shoals", ["north"], ["north"]);
      Reach(k, StartIsland, ["north"] + ["north"]);
    } else if k == "Doubloon Point" {
      WalkAppend(Layout, "Cutlass Bay", "Mermaid Shoals", ["north"], ["north"]);
      WalkAppend(Layout, k, "Cutlass Bay", ["west"], ["north"] + ["north"]);
      Reach(k, StartIsland, ["west"] + (["north"] + ["north"]));
    } else {
      LayoutIsland(k);
      assert false;
    }
  }

  /** Every island can be reached from every island along exits (Rules.GoAnywhere: by typed go commands). */
  lemma LayoutStronglyConnected(a: string, b: string)
    requires a in Layout && b in Layout
    ensures exists dirs :: Walk(Layout, a, dirs) == Some(b)
  {
    AllReachHome(a);
    HomeReachesAll(b);
    var p :| Walk(Layout, a, p) == Some(StartIsland);
    var q :| Walk(Layout, StartIsland, q) == Some(b);
    WalkAppend(Layout, a, StartIsland, p, q);
    assert Walk(Layout, a, p + q) == Some(b);
  }

  /** Islands carrying the shipped names, exits and items form a well-formed world. */
  lemma ShippedWorld(w: World)
    requires forall k :: k in Layout ==> k in w
    requires Shipped(w)
    ensures w.Keys == Layout.Keys && WellFormed(w) && Items(w) == InitialItems
  {
    LayoutClosed();
  }

  /** The island called `k` as the program starts. */
  method NewIsland(k: string) returns (island: Island)
    requires k in Layout && k in InitialItems
    ensures fresh(island)
    ensures island.name == k && island.exits == Layout[k] && island.items == InitialItems[k]
  {
    island := new Island(k, InitialItems[k], Layout[k]);
  }

  /** The islands built so far are shipped islands, each filed under its own name. */
  predicate Shipped(w: World)
    reads w.Values
  {
    forall k :: k in w ==>
      k in Layout && k in InitialItems && w[k].name == k && w[k].exits == Layout[k] && w[k].items == InitialItems[k]
  }

  /** Adds the shipped island called `k` to the islands built so far. */
  method AddIsland(w: World, k: string) returns (w': World)
    requires Shipped(w) && k in Layout && k in InitialItems
    ensures Shipped(w') && w'.Keys == w.Keys + {k}
    ensures forall j :: j in w && j != k ==> w'[j] == w[j]
    ensures fresh(w'[k])
    ensures forall j :: j in w' ==> (j in w && w'[j] == w[j]) || fresh(w'[j])
  {
    var island := NewIsland(k);
    w' := w[k := island];
  }

  /** The islands of WORLD, in the order the program declares them. */
  const IslandNames: seq<string> :=
    ["Pirate Cove", "Skull Key", "Blackwater Cay", "Rumrunner Atoll", "Mermaid Shoals", "Cutlass Bay", "Doubloon Point"]

  /** The declared islands are exactly the islands of the layout, each with its initial items. */
  lemma IslandNamesShipped()
    ensures forall j :: 0 <= j < |IslandNames| ==> IslandNames[j] in Layout && IslandNames[j] in InitialItems
    ensures forall k :: k in Layout ==> k in IslandNames
  {
    LayoutRows();
  }

  /** WORLD: the seven islands of the shipped game, as the program starts, each a new object. */
  method NewWorld() returns (w: World)
    ensures WellFormed(w)
    ensures w.Keys == Layout.Keys && StartIsland in w
    ensures forall k :: k in w ==> w[k].exits == Layout[k]
    ensures Items(w) == InitialItems
    ensures forall k :: k in w ==> fresh(w[k])
  {
    IslandNamesShipped();
    w := AddIslands(IslandNames);
    ShippedWorld(w);
  }

  /** Builds the shipped islands called `names`, one after the other, each a new object. */
  method AddIslands(names: seq<string>) returns (w: World)
    requires forall j :: 0 <= j < |names| ==> names[j] in Layout && names[j] in InitialItems
    ensures Shipped(w)
    ensures forall j :: 0 <= j < |names| ==> names[j] in w
    ensures forall k :: k in w ==> fresh(w[k])
  {
    w := map[];
    for i := 0 to |names|
      invariant Shipped(w)
      invariant forall j :: 0 <= j < i ==> names[j] in w
      invariant forall k :: k in w ==> fresh(w[k])
    {
      w := AddIsland(w, names[i]);
    }
  }
}

=== FILE: wrappers.dfy ===
/** Python's `None`-or-value results. */
module Wrappers {

  datatype Option<T> = None | Some(value: T)
}
